=== FILE: README.md ===
# AntennaPod synchronisation pass and feed-type exception, in Dafny

This project models the gpodder-style synchronisation worker of AntennaPod
(`SyncService`) and the parser's `UnsupportedFeedtypeException`, and proves
properties of both.

**The synchronisation worker.** A `SyncService` object holds the device state
the worker reads and writes:

- the synchronisation settings: the selected provider key, the connected
  flag, the subscription and episode-action watermarks, and the last attempt
  and its success flag;
- the pending-change queue: queued added feeds, queued removed feeds and
  queued episode actions;
- the local subscription list;
- the item table, whose items carry an id, a played flag and optional media
  with position and duration;
- the play queue.

The object also records what a pass asks of the outside world:

- the provider calls in order (login, fetch, upload, logout);
- the feed downloads requested;
- the local unsubscriptions requested;
- whether a new pass was requested;
- whether the error notification is showing.

The provider's answers and the clock reading are inputs. Each provider call
either returns a value or fails with a synchronisation exception.

Every method of the class is proved to take the state to the value a pure
specification function gives: `Pass`, `Session`, `SubscriptionPhase`,
`EpisodeActionPhase`, `RemoteActionsApplied` and the `After…` functions in
`sync_spec.dfy`. The promises of the source are then proved as lemmas about
those functions and about the decision rules in `sync_rules.dfy`. The rules
cover:

- which remote-added feeds are downloaded and which remote-removed feeds are
  unsubscribed;
- what the first sync uploads;
- when the queues are cleared and which timestamp becomes the watermark;
- the PLAY actions a first sync announces;
- how a winning remote action changes an item;
- the retry and notification rule;
- the guards of the enqueue operations.

The collaborators whose code is not part of this model are fields of a
`Collaborators` value, and the model assumes nothing about them:

- `URLChecker.containsUrl`;
- `GuidValidator.isValidGuid`;
- `DBReader.getFeedItemByGuidOrEpisodeUrl`, as a lookup from (guid, episode
  URL) to an item id;
- `EpisodeActionFilter.getRemoteActionsOverridingLocalActions`;
- `FeedItemUtil.hasAlmostEnded`.

Java `int` arithmetic is explicit:

- milliseconds become seconds by division that truncates toward zero
  (`JavaInt.Secs`);
- a remote position in seconds becomes milliseconds by a 32-bit multiplication
  that wraps around (`JavaInt.Wrap32`).

A non-NEW remote action on an item without media dereferences a null media at
`SyncService.java:316`. The model carries that as the `Crashed` outcome: the
NullPointerException escapes `doWork` (the `Crash` result), and items already
marked unplayed by NEW actions stay so.

**The exception.** `UnsupportedFeedtypeException` is a value built by one of
its three constructors. `GetMessage` returns one of three things:

- the explicit message;
- "Invalid type";
- "Type T not supported".

A null reference is `None`.

## Model

All source paths below are relative to the repository root. `SyncService.java`
stands for `core/src/main/java/de/danoeh/antennapod/core/sync/SyncService.java`
in the prose, but every table cell spells the path out.

| member | source | states |
|---|---|---|
| FeedTypeErrors.UnsupportedFeedtypeException.GetMessage | parser/feed/src/main/java/de/danoeh/antennapod/parser/feed/UnsupportedFeedtypeException.java:35-44 | an explicit message is returned as it is; without one, type INVALID gives "Invalid type" and any other type T (null included) gives "Type " + T + " not supported" |
| FeedTypeErrors.TypeText | parser/feed/src/main/java/de/danoeh/antennapod/parser/feed/UnsupportedFeedtypeException.java:42 | a type prints as "null" exactly when it is null, and as "INVALID" exactly when it is INVALID |
| FeedTypeErrors.OfType | parser/feed/src/main/java/de/danoeh/antennapod/parser/feed/UnsupportedFeedtypeException.java:12-15 | the one-argument constructor: getType returns the given type, getRootElement returns null, and the message is derived from the type |
| FeedTypeErrors.OfTypeAndRoot | parser/feed/src/main/java/de/danoeh/antennapod/parser/feed/UnsupportedFeedtypeException.java:17-20 | the two-argument constructor: getType and getRootElement return the arguments; the message is the same as the one-argument constructor's |
| FeedTypeErrors.OfMessage | parser/feed/src/main/java/de/danoeh/antennapod/parser/feed/UnsupportedFeedtypeException.java:22-25 | the String constructor fixes the type to INVALID with a null root element; getMessage returns exactly the given string, or "Invalid type" when that is null |
| FeedTypeErrors.ExplicitMessageWins | parser/feed/src/main/java/de/danoeh/antennapod/parser/feed/UnsupportedFeedtypeException.java:36-38 | a supplied message takes precedence over any type-derived text, whatever the type and root element |
| FeedTypeErrors.TypeTextInjective | parser/feed/src/main/java/de/danoeh/antennapod/parser/feed/UnsupportedFeedtypeException.java:42 | distinct types (and null) print as distinct names |
| FeedTypeErrors.DerivedMessageIdentifiesType | parser/feed/src/main/java/de/danoeh/antennapod/parser/feed/UnsupportedFeedtypeException.java:39-43 | without an explicit message, two exceptions report the same text only when built from the same type |
| JavaInt.Wrap32 | core/src/main/java/de/danoeh/antennapod/core/sync/SyncService.java:316 | the Java int value of a product: congruent to the mathematical value modulo 2^32, equal to it when it fits, and the value minus 2^32 just above the range |
| JavaInt.Secs | core/src/main/java/de/danoeh/antennapod/core/sync/SyncService.java:163-165 | milliseconds / 1000 truncates toward zero: s*1000 <= ms < s*1000+1000 for ms >= 0, and the mirror bounds for ms < 0 |
| JavaInt.SecsMonotonic | core/src/main/java/de/danoeh/antennapod/core/sync/SyncService.java:163-165 | the conversion to seconds never reverses the order of two values |
| JavaInt.MillisExact | core/src/main/java/de/danoeh/antennapod/core/sync/SyncService.java:316 | position * 1000 is exact for positions up to INT_MAX / 1000 seconds |
| JavaInt.MillisWrapsAround | core/src/main/java/de/danoeh/antennapod/core/sync/SyncService.java:316 | one second more and the millisecond position written to the media is negative |
| Lists.Minus | core/src/main/java/de/danoeh/antennapod/core/sync/SyncService.java:225-227 | removeAll keeps exactly the elements absent from the removed list and never grows the list |
| Lists.MinusKeepsCounts | core/src/main/java/de/danoeh/antennapod/core/sync/SyncService.java:225-227 | removeAll keeps every occurrence of an element it does not remove |
| Lists.MinusConcat | core/src/main/java/de/danoeh/antennapod/core/sync/SyncService.java:225-227 | removeAll keeps the order: on a concatenation it removes from each part and concatenates the rests |
| Lists.MinusNothing | core/src/main/java/de/danoeh/antennapod/core/sync/SyncService.java:325 | removing an empty id list leaves the play queue as it was, order and duplicates included |
| SyncRules.ProviderKindNamed | core/src/main/java/de/danoeh/antennapod/core/sync/SynchronizationProviderViewData.java:5-9 | valueOf accepts a name only if it is that constant's name |
| SyncRules.ProviderNameRoundTrip | core/src/main/java/de/danoeh/antennapod/core/sync/SynchronizationProviderViewData.java:5-9 | every constant's name reads back as that constant |
| SyncRules.ActiveProviderAsWritten | core/src/main/java/de/danoeh/antennapod/core/sync/SyncService.java:403-417 | the lookup as written: it throws iff the key is null or not a constant's name, yields no provider iff the key is "NONE", and otherwise yields the named provider |
| SyncRules.UnsetKeyRejectedAsWritten | core/src/main/java/de/danoeh/antennapod/core/sync/SyncService.java:404-406 | with no key stored, the lookup as written throws, while the corrected lookup reports no provider |
| SyncRules.ActiveProvider | core/src/main/java/de/danoeh/antennapod/core/sync/SyncService.java:76-79 | no provider iff the key is unset or "NONE"; with a key set it agrees with the lookup as written; it throws only on an unknown name |
| SyncRules.HasActiveSyncProvider | core/src/main/java/de/danoeh/antennapod/core/sync/SyncService.java:419-422 | enqueuing is active only with a key set, where the corrected lookup agrees with the lookup as written; a selected provider that is connected always makes it active |
| SyncRules.NotifiesOncePerThreeAttempts | core/src/main/java/de/danoeh/antennapod/core/sync/SyncService.java:96-99 | of any three consecutive run attempts exactly one raises the notification, and the first two never do |
| SyncRules.NotifiesOnFailure | core/src/main/java/de/danoeh/antennapod/core/sync/SyncService.java:96 | an attempt that notifies is at least the third and follows one that does not |
| SyncRules.FeedsToDownload | core/src/main/java/de/danoeh/antennapod/core/sync/SyncService.java:205-214 | the downloads a pass requests are never more than the remote additions |
| SyncRules.FeedsToDownloadMembers | core/src/main/java/de/danoeh/antennapod/core/sync/SyncService.java:205-206 | a URL is downloaded iff the remote added it and it is neither subscribed locally nor queued as removed |
| SyncRules.FeedsToRemove | core/src/main/java/de/danoeh/antennapod/core/sync/SyncService.java:217-221 | the local unsubscriptions are never more than the remote removals |
| SyncRules.FeedsToRemoveMembers | core/src/main/java/de/danoeh/antennapod/core/sync/SyncService.java:217-218 | a URL is unsubscribed locally iff the remote removed it and it is not queued as added |
| SyncRules.SubscriptionUpload | core/src/main/java/de/danoeh/antennapod/core/sync/SyncService.java:223-228 | after an incremental fetch the queued lists are uploaded; on the first sync the added list is the local subscriptions not reported as added (queued additions replaced) and the removed list the queued removals not reported as removed |
| SyncRules.EpisodePlayedAction | core/src/main/java/de/danoeh/antennapod/core/sync/SyncService.java:155-166 | no action iff the media has no item, starts below zero, or did not advance without completing; otherwise a PLAY action with started = start/1000, position = (completed ? duration : position)/1000, total = duration/1000, the clock's timestamp, the item's feed URL as podcast, and the item's guid and media URL |
| SyncRules.PlayedActionOrdered | core/src/main/java/de/danoeh/antennapod/core/sync/SyncService.java:158-165 | a recorded PLAY action has 0 <= started <= position <= total when the media's offsets are within its duration |
| SyncRules.PlayedItems | core/src/main/java/de/danoeh/antennapod/core/sync/SyncService.java:260 | the played history holds exactly the played items of the table |
| SyncRules.PlayedItemsConcat | core/src/main/java/de/danoeh/antennapod/core/sync/SyncService.java:260 | the played history keeps table order: reading two parts of the table concatenates their histories |
| SyncRules.FirstSyncPlayActions | core/src/main/java/de/danoeh/antennapod/core/sync/SyncService.java:262-274 | exactly one PLAY action per played item with media (none for items without), each with started = position = total = duration/1000 and the clock's timestamp |
| SyncRules.ActionsToUpload | core/src/main/java/de/danoeh/antennapod/core/sync/SyncService.java:257-275 | the queued actions come first and unchanged; the upload is longer by exactly the number of played items with media on the first sync and by nothing otherwise; every appended action is a full-duration PLAY of a played item with media, stamped with the clock reading |
| SyncRules.IndexOfItem | core/src/main/java/de/danoeh/antennapod/core/sync/SyncService.java:305-309 | the row found is the first one holding the item with that id; no row means no item has it |
| SyncRules.FindRow | core/src/main/java/de/danoeh/antennapod/core/sync/SyncService.java:304-305 | the lookup uses the action's guid only when it is valid, else none, together with the episode URL; a row is found iff the lookup yields an id some row holds, and the row found holds that id |
| SyncRules.PositionedItem | core/src/main/java/de/danoeh/antennapod/core/sync/SyncService.java:315-321 | a non-NEW action sets the media position to action.position * 1000 (as a Java int); the item is played iff it was or has almost ended; everything else in the item, its id, feed URL, identifier and other media fields, is kept |
| SyncRules.ApplyWinner | core/src/main/java/de/danoeh/antennapod/core/sync/SyncService.java:304-322 | one iteration: once stopped it changes nothing; it keeps the table's size, only appends at most one item to those written back, and collects nothing when it stops |
| SyncRules.ApplyAll | core/src/main/java/de/danoeh/antennapod/core/sync/SyncService.java:303-324 | the whole loop keeps the table's size, writes back at most one item per action, and changes nothing once stopped |
| SyncRules.ApplyWinnerEffect | core/src/main/java/de/danoeh/antennapod/core/sync/SyncService.java:303-323 | per winning action: unknown item skipped; NEW marks it unplayed and touches nothing else; otherwise an item without media stops the loop, and one with media is collected for writing back, with its id queued for play-queue removal iff it has almost ended |
| SyncRules.ApplyAllCrashAbsorbs | core/src/main/java/de/danoeh/antennapod/core/sync/SyncService.java:315-316 | once the loop has stopped on a null media, the remaining actions change nothing |
| SyncRules.ApplyAllKeepsTable | core/src/main/java/de/danoeh/antennapod/core/sync/SyncService.java:303-324 | the loop keeps the number and order of the table rows and changes nothing in a row but its played flag, and only appends to what it collected |
| SyncRules.ApplyAllConsistent | core/src/main/java/de/danoeh/antennapod/core/sync/SyncService.java:317-322 | only items of the table are written back, and every id removed from the play queue belongs to an item written back as played |
| SyncRules.ApplyAllWritesPositions | core/src/main/java/de/danoeh/antennapod/core/sync/SyncService.java:304-322 | at most one written-back item per action, and each carries the position in milliseconds of a non-NEW action whose lookup found that very item |
| SyncRules.SameIdsSameIndex | core/src/main/java/de/danoeh/antennapod/core/sync/SyncService.java:305 | the row a lookup finds depends only on the ids of the rows, so clearing played flags does not move it |
| SyncRules.ApplyWinnerWritesFound | core/src/main/java/de/danoeh/antennapod/core/sync/SyncService.java:315-327 | one non-NEW action that finds a row and does not stop the loop writes that row's item back at its position |
| SyncRules.ApplyAllWritesEveryWinner | core/src/main/java/de/danoeh/antennapod/core/sync/SyncService.java:303-324 | when the loop runs to the end, every non-NEW action whose lookup finds a row has that row's item written back with the action's position in milliseconds |
| SyncRules.ApplyAllEndedArePlayed | core/src/main/java/de/danoeh/antennapod/core/sync/SyncService.java:317-321 | an item written back whose media has almost ended is written back as played, and its id is queued for removal from the play queue |
| SyncRules.ApplyWinnerNeverPlays | core/src/main/java/de/danoeh/antennapod/core/sync/SyncService.java:308-321 | no step of the loop sets a played flag in the table; NEW actions only clear them |
| SyncRules.ApplyAllNewUnplays | core/src/main/java/de/danoeh/antennapod/core/sync/SyncService.java:303-324 | a NEW action that finds a row leaves it unplayed in the table for the rest of a loop that runs to the end |
| SyncRules.WriteRow | core/src/main/java/de/danoeh/antennapod/core/sync/SyncService.java:327 | writing one item replaces exactly the rows with its id |
| SyncRules.WriteItems | core/src/main/java/de/danoeh/antennapod/core/sync/SyncService.java:327 | writing the updated items keeps the table's rows and ids; a row changes only to an updated item, and a row no update names is untouched |
| SyncRules.WriteItemsLastWins | core/src/main/java/de/danoeh/antennapod/core/sync/SyncService.java:327 | a row that updates name takes the last update with its id |
| SyncRules.LastUpdateExists | core/src/main/java/de/danoeh/antennapod/core/sync/SyncService.java:327 | every update of an id is followed, possibly at itself, by a last update of that id |
| SyncRules.WithFeedAdded | core/src/main/java/de/danoeh/antennapod/core/sync/SyncService.java:113-115 | after queuing a subscription the URL is queued as added and not as removed; other URLs and the action queue are unchanged |
| SyncRules.WithFeedRemoved | core/src/main/java/de/danoeh/antennapod/core/sync/SyncService.java:127-129 | after queuing an unsubscription the URL is queued as removed and not as added; other URLs and the action queue are unchanged |
| SyncRules.MinusTwice | core/src/main/java/de/danoeh/antennapod/core/sync/SyncService.java:113-135 | removing the same URLs twice removes nothing more |
| SyncRules.QueueFeedAddedIdempotent | core/src/main/java/de/danoeh/antennapod/core/sync/SyncService.java:113-120 | queuing the same subscription twice leaves the queue as queuing it once, under the assumed queue semantics |
| SyncRules.QueueFeedRemovedIdempotent | core/src/main/java/de/danoeh/antennapod/core/sync/SyncService.java:127-134 | queuing the same unsubscription twice leaves the queue as queuing it once, under the assumed queue semantics |
| SyncRules.LaterRemovalCancelsAddition | core/src/main/java/de/danoeh/antennapod/core/sync/SyncService.java:109-135 | an unsubscription queued after a subscription of the same URL leaves only the removal, under the assumed queue semantics |
| SyncSpec.PassWithoutProvider | core/src/main/java/de/danoeh/antennapod/core/sync/SyncService.java:76-79 | with no provider selected a pass succeeds with the state untouched: no attempt recorded, no provider call |
| SyncSpec.SubscriptionPhaseKeepsAttemptState | core/src/main/java/de/danoeh/antennapod/core/sync/SyncService.java:195-245 | the subscription phase never touches the provider key, the attempt bookkeeping or the notification |
| SyncSpec.RemoteActionsKeepAttemptState | core/src/main/java/de/danoeh/antennapod/core/sync/SyncService.java:293-328 | applying remote actions never touches the provider key, the attempt bookkeeping or the notification |
| SyncSpec.EpisodeActionsUploadedKeepsAttemptState | core/src/main/java/de/danoeh/antennapod/core/sync/SyncService.java:276-289 | the episode-action upload never touches the provider key, the attempt bookkeeping or the notification |
| SyncSpec.EpisodeActionPhaseKeepsAttemptState | core/src/main/java/de/danoeh/antennapod/core/sync/SyncService.java:247-290 | the episode-action phase never touches the provider key, the attempt bookkeeping or the notification |
| SyncSpec.SessionKeepsAttemptState | core/src/main/java/de/danoeh/antennapod/core/sync/SyncService.java:82-88 | login, both phases and logout leave the attempt bookkeeping and the notification to doWork |
| SyncSpec.RetryRule | core/src/main/java/de/danoeh/antennapod/core/sync/SyncService.java:81-101 | with a provider the attempt time is recorded; a synchronisation failure anywhere yields Retry with the success flag false and the notification raised only on attempts with count % 3 == 2 (and notifications enabled); a completed pass yields Success with the flag true and the notification cleared |
| SyncSpec.RemoteSubscriptionChanges | core/src/main/java/de/danoeh/antennapod/core/sync/SyncService.java:205-221 | in the whole phase, a remote-added URL is downloaded iff it is neither subscribed nor queued as removed, and a remote-removed URL is unsubscribed iff it is not queued as added |
| SyncSpec.SubscriptionFetchFailure | core/src/main/java/de/danoeh/antennapod/core/sync/SyncService.java:196-198 | a failed fetch ends the phase with the failure and nothing changed but the recorded call |
| SyncSpec.SubscriptionUploadRule | core/src/main/java/de/danoeh/antennapod/core/sync/SyncService.java:230-244 | an upload happens iff either list is non-empty; on success the feed queues are cleared and the upload's timestamp becomes the watermark, every other setting unchanged; on failure queues and settings are unchanged; with nothing to upload the fetched timestamp becomes the watermark |
| SyncSpec.FirstSubscriptionSync | core/src/main/java/de/danoeh/antennapod/core/sync/SyncService.java:223-237 | with watermark 0 the upload is (local minus remote-added, queued-removed minus remote-removed), and it is sent when non-empty |
| SyncSpec.FullSyncStartsOver | core/src/main/java/de/danoeh/antennapod/core/sync/SyncService.java:184-186 | after fullSync both watermarks are 0 and the next subscription phase takes the first-sync branch |
| SyncSpec.FirstSyncScenario | core/src/main/java/de/danoeh/antennapod/core/sync/SyncService.java:195-244 | watermark 0, no remote changes at 100, local [X]: the phase uploads ([X], []), clears the queues and adopts the upload's timestamp |
| SyncSpec.NoWinnersChangeNothing | core/src/main/java/de/danoeh/antennapod/core/sync/SyncService.java:295-297 | an empty remote batch, or one with no winning actions, changes nothing |
| SyncSpec.RemoteActionsKeepTable | core/src/main/java/de/danoeh/antennapod/core/sync/SyncService.java:299-327 | applying remote actions keeps the table's rows and ids, leaves the media of rows no written-back item names, writes back only known items, and removes from the play queue only items written back as played |
| SyncSpec.RemoteActionsWritePositions | core/src/main/java/de/danoeh/antennapod/core/sync/SyncService.java:304-327 | after remote actions are applied without a stop, a row that a written-back item names keeps its id and has media at the position in milliseconds of a winning non-NEW action whose lookup found that row's item |
| SyncSpec.RemoteActionsWriteEveryWinner | core/src/main/java/de/danoeh/antennapod/core/sync/SyncService.java:303-327 | no non-NEW winner is lost: after a pass without a stop, the row its lookup finds has media at the position of a winning non-NEW action for that item |
| SyncSpec.RemoteActionsEndedLeaveQueue | core/src/main/java/de/danoeh/antennapod/core/sync/SyncService.java:317-327 | after a pass without a stop, a row an item written back names whose final media has almost ended is played and its id has left the play queue |
| SyncSpec.RemoteActionsNewUnplays | core/src/main/java/de/danoeh/antennapod/core/sync/SyncService.java:308-327 | after a pass without a stop, a NEW winner's row is unplayed unless a non-NEW winner's lookup finds the same item, since that winner writes back its own copy of the item |
| SyncSpec.EpisodeActionFetchFailure | core/src/main/java/de/danoeh/antennapod/core/sync/SyncService.java:248-250 | a failed fetch ends the phase with the failure and nothing changed but the recorded call |
| SyncSpec.EpisodeActionUploadRule | core/src/main/java/de/danoeh/antennapod/core/sync/SyncService.java:257-289 | the upload is the queued actions plus, on the first sync, the played history's PLAY actions; it is sent iff non-empty; only on success is the action queue cleared and the upload's timestamp adopted; on failure queue and settings stay; with nothing to upload the fetched timestamp is adopted |
| SyncSpec.PhasesCommitIndependently | core/src/main/java/de/danoeh/antennapod/core/sync/SyncService.java:244-289 | when the episode-action phase fails, the settings (including the subscription watermark just adopted), the subscriptions and the feed queues are as the subscription phase left them |
| SyncSpec.EnqueueNeedsActiveProvider | core/src/main/java/de/danoeh/antennapod/core/sync/SyncService.java:109-168 | without a selected and connected provider the four enqueue operations change nothing |
| SyncSpec.EpisodePlayedQueued | core/src/main/java/de/danoeh/antennapod/core/sync/SyncService.java:151-168 | enqueueEpisodePlayed queues nothing when its guard refuses, and otherwise exactly the guarded PLAY action, and requests a pass |
| SyncWorker.SyncService.constructor | core/src/main/java/de/danoeh/antennapod/core/sync/SyncService.java:68-71 | the worker starts on the given device state |
| SyncWorker.SyncService.DoWork | core/src/main/java/de/danoeh/antennapod/core/sync/SyncService.java:73-102 | doWork takes the state and result to those of the specification Pass |
| SyncWorker.SyncService.Synchronize | core/src/main/java/de/danoeh/antennapod/core/sync/SyncService.java:82-88 | login, both phases and logout, ending at the first failure, as Session describes |
| SyncWorker.SyncService.SyncSubscriptions | core/src/main/java/de/danoeh/antennapod/core/sync/SyncService.java:195-245 | syncSubscriptions takes the state and outcome to those of SubscriptionPhase |
| SyncWorker.SyncService.ApplyRemoteSubscriptionChanges | core/src/main/java/de/danoeh/antennapod/core/sync/SyncService.java:205-221 | the two loops append exactly FeedsToDownload and FeedsToRemove to the requested downloads and unsubscriptions and change nothing else |
| SyncWorker.SyncService.SyncEpisodeActions | core/src/main/java/de/danoeh/antennapod/core/sync/SyncService.java:247-290 | syncEpisodeActions takes the state and outcome to those of EpisodeActionPhase |
| SyncWorker.WithFirstSyncActions | core/src/main/java/de/danoeh/antennapod/core/sync/SyncService.java:258-275 | the first-sync loop appends exactly FirstSyncPlayActions of the played items to the queued actions |
| SyncWorker.SyncService.ProcessEpisodeActions | core/src/main/java/de/danoeh/antennapod/core/sync/SyncService.java:293-328 | processEpisodeActions takes the item table and play queue to RemoteActionsApplied, reporting whether a null media stopped it |
| SyncWorker.SyncService.ApplyWinners | core/src/main/java/de/danoeh/antennapod/core/sync/SyncService.java:301-324 | the loop over the winners ends in the state ApplyAll describes: table, written-back items, ids to dequeue and whether it stopped |
| SyncWorker.SyncService.EnqueueFeedAdded | core/src/main/java/de/danoeh/antennapod/core/sync/SyncService.java:109-121 | with an active provider, queues the subscription (unless encoding fails) and requests a pass; otherwise changes nothing |
| SyncWorker.SyncService.EnqueueFeedRemoved | core/src/main/java/de/danoeh/antennapod/core/sync/SyncService.java:123-135 | with an active provider, queues the unsubscription (unless encoding fails) and requests a pass; otherwise changes nothing |
| SyncWorker.SyncService.EnqueueEpisodeAction | core/src/main/java/de/danoeh/antennapod/core/sync/SyncService.java:137-149 | with an active provider, appends the action (unless encoding fails) and requests a pass; otherwise changes nothing |
| SyncWorker.SyncService.EnqueueEpisodePlayed | core/src/main/java/de/danoeh/antennapod/core/sync/SyncService.java:151-168 | with an active provider, queues the action EpisodePlayedAction builds, if any |
| SyncWorker.SyncService.FullSync | core/src/main/java/de/danoeh/antennapod/core/sync/SyncService.java:184-193 | zeroes both watermarks and requests a pass |
| SyncWorker.SyncService.ClearQueue | core/src/main/java/de/danoeh/antennapod/core/sync/SyncService.java:104-107 | empties all three pending lists |

## Left out

- WorkManager scheduling is not modelled: `sync`, `syncImmediately`, `getWorkRequest`, the REPLACE policy, backoff and network constraints. A requested pass is the flag `syncRequested`, and the run attempt count is a parameter of `DoWork`.
- The `ReentrantLock` and `executeLockedAsync` are not modelled. Every locked region runs as a plain sequential step, and concurrent enqueues during a pass are out of scope.
- EventBus status posts and the building of notifications are not modelled. The notification is the flag `errorNotification`, and the user's notification setting is a parameter.
- Provider construction (HTTP client, credentials) is not modelled. The provider's answers are the `ProviderAnswers` input, and the provider calls are recorded in order.
- The code of SynchronizationQueue, SynchronizationSettings, DBReader, DBWriter, DBTasks, DownloadRequester, URLChecker, GuidValidator, EpisodeActionFilter and FeedItemUtil is not part of this model. The five collaborators the pass consults are uninterpreted fields of `Collaborators`. Downloads and unsubscriptions are recorded requests, so a pass does not change the subscription list itself.
- The model gives four database calls a meaning of its own choosing:
  - `PlayedItems` is `DBReader.getPlayedItems`: the played rows in table order.
  - `WriteItems` is `DBWriter.setItemList`: each item overwrites the rows with its id, and the last one wins.
  - `Minus` on the play queue is `DBWriter.removeQueueItem`.
  - A NEW action's `played := false` is `DBWriter.markItemPlayed`.

  The model also assumes that the first-sync read of played items sees the writes `processEpisodeActions` made earlier in the same pass.
  It assumes too that the per-action read `getFeedItemByGuidOrEpisodeUrl` (SyncService.java:304-305) sees a `markItemPlayed` of an earlier NEW action in the same pass, so a later non-NEW action for that item starts from the unplayed copy.
- WithFeedAdded, WithFeedRemoved: SynchronizationQueue's code is not part of this model. Enqueuing a URL is assumed to add it once to its own list and drop it from the opposite one. A JSONException while storing is the `encodeOk = false` input: the queue is left as it was and a pass is still requested.
- ApplyWinner: a NEW action clears the played flag only. The position reset that `DBWriter.markItemPlayed`'s third argument asks for happens in DBWriter, which is not part of this model.
- `DBReader.loadAdditionalFeedItemListData` is not modelled, because it only loads display data before the items are written back.
- A `DownloadRequestException` is swallowed by the source, so the model records every requested download.
- Every timestamp an action takes from the clock (`currentTimestamp`) is the single `now` input of the call.
- The winning actions come from a map's `values()`, whose iteration order is not specified. The model takes the order `overridingRemote` returns.
- Watermarks and timestamps are unbounded integers, so Java `long` overflow is not modelled.
- The conflict rule of EpisodeActionFilter is not modelled, because its code is not part of this model.
- `getRunAttemptCount`, `UserPreferences` and the clock are inputs rather than reads.
- DoWork: the method and its specification `Pass` use the corrected lookup `ActiveProvider`. With no key stored they return Success on the unchanged state, where the code as written throws a NullPointerException out of `doWork` (see Findings and `ActiveProviderAsWritten`).
- IndexOfItem: a NEW action updates the first row holding the item's id, while `WriteItems` rewrites every row with that id. The model does not assume that ids are unique in the table.
- FeedType: the exception imports `TypeResolver.Type` from `parser.feed.util`, whose code is not part of this model. The five constants, and each printing as its own name, are taken from the type resolver that `FeedHandlerTypeAgnostic` uses (`parser.feed.type.TypeResolver`), which is a different class.
- `SynchronizationProviderViewData` is modelled by its constant names only; display names and resources are left out.

## Findings

| source | as written | input that shows it | evidently intended | confidence | as-written member | corrected member |
|---|---|---|---|---|---|---|
| core/src/main/java/de/danoeh/antennapod/core/sync/SyncService.java:404-406 | `getActiveSyncProvider` passes the stored key to `SynchronizationProviderViewData.valueOf`, which throws a NullPointerException for a null key | no provider ever selected: `selectedProviderKey` is null, which is the settings' initial state | an unset key means no provider, so `doWork` returns success without a pass | not executed | SyncRules.ActiveProviderAsWritten (with SyncRules.UnsetKeyRejectedAsWritten) | SyncRules.ActiveProvider |

=== FILE: feed_type_errors.dfy ===
/**
 * The exception the feed parser raises for a document it cannot handle.
 * Its fields are fixed by one of three constructors; `GetMessage` picks the
 * text from them. Java's nullable references are `Option`s.
 */
module FeedTypeErrors {

  import opened Wrappers

  /** The feed types the type resolver distinguishes. */
  datatype FeedType = Rss20 | Rss091 | Atom | Json | Invalid

  /** Java's `String.valueOf` of a (possibly null) type: the enum constant's name, or "null". */
  function TypeText(t: Option<FeedType>): (r: string)
    ensures r == "null" <==> t.None?
    ensures r == "INVALID" <==> t == Some(Invalid)
  {
    match t
    case None => "null"
    case Some(Rss20) => "RSS20"
    case Some(Rss091) => "RSS091"
    case Some(Atom) => "ATOM"
    case Some(Json) => "JSON"
    case Some(Invalid) => "INVALID"
  }

  datatype UnsupportedFeedtypeException = UnsupportedFeedtypeException(
    feedType: Option<FeedType>,
    rootElement: Option<string>,
    message: Option<string>)
  {
    function GetType(): Option<FeedType> { feedType }

    function GetRootElement(): Option<string> { rootElement }

    /** The explicit message if there is one, otherwise a text derived from the type. */
    function GetMessage(): (r: string)
      ensures message.Some? ==> r == message.value
      ensures message.None? && feedType == Some(Invalid) ==> r == "Invalid type"
      ensures message.None? && feedType != Some(Invalid) ==> r == "Type " + TypeText(feedType) + " not supported"
    {
      if message.Some? then message.value
      else if feedType == Some(Invalid) then "Invalid type"
      else "Type " + TypeText(feedType) + " not supported"
    }
  }

  /** `new UnsupportedFeedtypeException(type)`. */
  function OfType(t: Option<FeedType>): (e: UnsupportedFeedtypeException)
    ensures e.GetType() == t && e.GetRootElement() == None
    ensures e.GetMessage() == if t == Some(Invalid) then "Invalid type" else "Type " + TypeText(t) + " not supported"
  {
    UnsupportedFeedtypeException(t, None, None)
  }

  /** `new UnsupportedFeedtypeException(type, rootElement)`. */
  function OfTypeAndRoot(t: Option<FeedType>, root: Option<string>): (e: UnsupportedFeedtypeException)
    ensures e.GetType() == t && e.GetRootElement() == root
    ensures e.GetMessage() == OfType(t).GetMessage()
  {
    UnsupportedFeedtypeException(t, root, None)
  }

  /** `new UnsupportedFeedtypeException(message)`: the type is fixed to INVALID. */
  function OfMessage(m: Option<string>): (e: UnsupportedFeedtypeException)
    ensures e.GetType() == Some(Invalid) && e.GetRootElement() == None
    ensures e.GetMessage() == if m.Some? then m.value else "Invalid type"
  {
    UnsupportedFeedtypeException(Some(Invalid), None, m)
  }

  /** An explicit message wins over anything the type would say, whatever the type. */
  lemma ExplicitMessageWins(t: Option<FeedType>, root: Option<string>, m: string)
    ensures UnsupportedFeedtypeException(t, root, Some(m)).GetMessage() == m
    ensures OfMessage(Some(m)).GetMessage() == m
  {
  }

  /** Distinct type names: `TypeText` is injective. */
  lemma TypeTextInjective(t1: Option<FeedType>, t2: Option<FeedType>)
    requires TypeText(t1) == TypeText(t2)
    ensures t1 == t2
  {
    var s1, s2 := TypeText(t1), TypeText(t2);
    assert |s1| == |s2| && s1[0] == s2[0] && s1[|s1| - 1] == s2[|s2| - 1];
  }

  /**
   * The derived message identifies the type: two exceptions without an explicit
   * message report the same text only when they were built from the same type.
   */
  lemma DerivedMessageIdentifiesType(t1: Option<FeedType>, t2: Option<FeedType>)
    requires OfType(t1).GetMessage() == OfType(t2).GetMessage()
    ensures t1 == t2
  {
    var m1, m2 := OfType(t1).GetMessage(), OfType(t2).GetMessage();
    if t1 != Some(Invalid) && t2 != Some(Invalid) {
      var n1, n2 := TypeText(t1), TypeText(t2);
      assert m1 == "Type " + n1 + " not supported";
      assert |n1| == |n2|;
      forall k | 0 <= k < |n1| ensures n1[k] == n2[k] {
        assert n1[k] == m1[5 + k] && n2[k] == m2[5 + k];
      }
      assert n1 == n2;
      TypeTextInjective(t1, t2);
    }
  }
}

=== FILE: java_int.dfy ===
/**
 * Java `int` arithmetic as the synchronisation code uses it: a 32-bit
 * two's-complement value, multiplication that wraps around, and `/` that
 * truncates toward zero (Dafny's own `/` is Euclidean).
 */
module JavaInt {

  const INT_MIN: int := -0x8000_0000
  const INT_MAX: int := 0x7fff_ffff

  /** A value of Java's `int`. */
  type Int32 = x: int | -0x8000_0000 <= x <= 0x7fff_ffff

  /** The `int` a Java expression of mathematical value `x` evaluates to. */
  function Wrap32(x: int): (r: Int32)
    ensures INT_MIN <= x <= INT_MAX ==> r == x
    ensures x > INT_MAX && x <= INT_MAX + 0x1_0000_0000 ==> r == x - 0x1_0000_0000
    ensures (r - x) % 0x1_0000_0000 == 0
  {
    (x + 0x8000_0000) % 0x1_0000_0000 - 0x8000_0000
  }

  /** Milliseconds to seconds, `ms / 1000` on a Java `int`: truncates toward zero. */
  function Secs(ms: Int32): (s: Int32)
    ensures 0 <= ms ==> 0 <= s && s * 1000 <= ms < s * 1000 + 1000
    ensures ms < 0 ==> s <= 0 && s * 1000 - 1000 < ms <= s * 1000
  {
    if ms >= 0 then ms / 1000 else -((-(ms as int)) / 1000)
  }

  /** Truncating division by 1000 never reverses the order of two values. */
  lemma SecsMonotonic(a: Int32, b: Int32)
    requires a <= b
    ensures Secs(a) <= Secs(b)
  {
    var sa: int, sb: int := Secs(a), Secs(b);
    if 0 <= a {
      assert sa * 1000 <= a <= b < sb * 1000 + 1000;
    } else if b < 0 {
      assert sa * 1000 - 1000 < a <= b <= sb * 1000;
    }
  }

  /** `seconds * 1000` is exact for every position below about 24.8 days. */
  lemma MillisExact(seconds: Int32)
    requires 0 <= seconds <= INT_MAX / 1000
    ensures Wrap32(seconds * 1000) == seconds * 1000
  {
  }

  /** One second more and the product no longer fits: Java yields a negative position. */
  lemma MillisWrapsAround()
    ensures Wrap32((INT_MAX / 1000 + 1) * 1000) < 0
  {
  }
}

=== FILE: lists.dfy ===
/** List operations the synchronisation pass applies to its URL and id lists. */
module Lists {

  /** `a.removeAll(b)` on a Java list: keeps, in order, the elements of `a` absent from `b`. */
  function Minus<T(==,!new)>(a: seq<T>, b: seq<T>): (r: seq<T>)
    ensures forall x :: x in r <==> x in a && x !in b
    ensures |r| <= |a|
  {
    if a == [] then [] else (if a[0] in b then [] else [a[0]]) + Minus(a[1..], b)
  }

  /** removeAll keeps every occurrence of an element it does not remove. */
  lemma {:induction false} MinusKeepsCounts<T(!new)>(a: seq<T>, b: seq<T>, x: T)
    requires x !in b
    ensures multiset(Minus(a, b))[x] == multiset(a)[x]
  {
    if a != [] {
      MinusKeepsCounts(a[1..], b, x);
      assert a == [a[0]] + a[1..];
      assert Minus(a, b) == (if a[0] in b then [] else [a[0]]) + Minus(a[1..], b);
    }
  }

  /** removeAll keeps the order: removing from a concatenation removes from each part. */
  lemma {:induction false} MinusConcat<T(!new)>(a: seq<T>, c: seq<T>, b: seq<T>)
    ensures Minus(a + c, b) == Minus(a, b) + Minus(c, b)
  {
    if a == [] {
      assert a + c == c;
    } else {
      var head := if a[0] in b then [] else [a[0]];
      calc {
        Minus(a + c, b);
      == { assert (a + c)[0] == a[0] && (a + c)[1..] == a[1..] + c; }
        head + Minus(a[1..] + c, b);
      == { MinusConcat(a[1..], c, b); }
        head + (Minus(a[1..], b) + Minus(c, b));
      ==
        Minus(a, b) + Minus(c, b);
      }
    }
  }

  /** Removing nothing leaves the list as it was, duplicates and order included. */
  lemma {:induction false} MinusNothing<T(!new)>(a: seq<T>)
    ensures Minus(a, []) == a
  {
    if a != [] {
      MinusNothing(a[1..]);
    }
  }
}

=== FILE: sync_model.dfy ===
/**
 * The state one synchronisation pass reads and writes, and the outside world
 * it talks to. The persistent stores (synchronisation settings, the pending
 * change queue, the local database) are values here; the remote provider is
 * the list of answers it gives, and the helpers whose code is not part of the
 * model are functions handed in.
 */
module SyncModel {

  import opened Wrappers
  import opened JavaInt

  /** The kind of an episode action; NEW resets an episode, the others carry a position. */
  datatype ActionKind = New | Download | Play | Delete

  /** One reported playback event. Offsets are seconds, held in Java `int`s. */
  datatype EpisodeAction = EpisodeAction(
    podcast: string,
    episode: string,
    guid: Option<string>,
    kind: ActionKind,
    timestamp: int,
    started: Int32,
    position: Int32,
    total: Int32)

  /** The playable file of an item; offsets are milliseconds. */
  datatype FeedMedia = FeedMedia(downloadUrl: string, position: Int32, duration: Int32, startPosition: Int32)

  /** A row of the local item table. */
  datatype FeedItem = FeedItem(id: int, feedUrl: string, identifier: Option<string>, played: bool, media: Option<FeedMedia>)

  /** The remote subscription delta since a watermark. */
  datatype SubscriptionChanges = SubscriptionChanges(added: seq<string>, removed: seq<string>, timestamp: int)

  /** The remote episode-action delta since a watermark. */
  datatype EpisodeActionChanges = EpisodeActionChanges(actions: seq<EpisodeAction>, timestamp: int)

  /** What a provider operation returns, or the synchronisation failure it throws. */
  datatype Reply<+T> = Ok(value: T) | Failed(cause: string)

  /** The answers the active provider gives during one pass, one per operation. */
  datatype ProviderAnswers = ProviderAnswers(
    login: Reply<()>,
    subscriptionChanges: Reply<SubscriptionChanges>,
    subscriptionUpload: Reply<int>,
    episodeActionChanges: Reply<EpisodeActionChanges>,
    episodeActionUpload: Reply<int>,
    logout: Reply<()>)

  /** A provider operation as it was invoked, with its arguments. */
  datatype ProviderCall =
    | Login
    | GetSubscriptionChanges(since: int)
    | UploadSubscriptionChanges(added: seq<string>, removed: seq<string>)
    | GetEpisodeActionChanges(since: int)
    | UploadEpisodeActions(actions: seq<EpisodeAction>)
    | Logout

  /** The persisted synchronisation settings. */
  datatype Settings = Settings(
    selectedProviderKey: Option<string>,
    providerConnected: bool,
    lastSubscriptionSync: int,
    lastEpisodeActionSync: int,
    lastAttempt: int,
    lastAttemptSuccess: bool)

  /** The pending-change queue: added feed URLs, removed feed URLs, episode actions. */
  datatype PendingQueue = PendingQueue(added: seq<string>, removed: seq<string>, actions: seq<EpisodeAction>)

  /** Helpers whose code is not part of the model. */
  datatype Collaborators = Collaborators(
    // URLChecker.containsUrl: whether a list holds a URL, up to URL normalisation
    containsUrl: (seq<string>, string) -> bool,
    // GuidValidator.isValidGuid
    isValidGuid: Option<string> -> bool,
    // DBReader.getFeedItemByGuidOrEpisodeUrl: the id of the matching item, if any
    findItem: (Option<string>, string) -> Option<int>,
    // EpisodeActionFilter.getRemoteActionsOverridingLocalActions(remote, local).values()
    overridingRemote: (seq<EpisodeAction>, seq<EpisodeAction>) -> seq<EpisodeAction>,
    // FeedItemUtil.hasAlmostEnded
    hasAlmostEnded: FeedMedia -> bool)

  /** Everything a pass can observe or change. */
  datatype World = World(
    settings: Settings,
    queue: PendingQueue,
    // download URLs of the local subscriptions
    subscriptions: seq<string>,
    // the local item table
    items: seq<FeedItem>,
    // ids of the items in the local play queue
    playQueue: seq<int>,
    // provider operations invoked, in order
    calls: seq<ProviderCall>,
    // feeds handed to the downloader
    feedDownloads: seq<string>,
    // feeds handed to the local unsubscribe operation
    feedRemovals: seq<string>,
    // whether a synchronisation job has been scheduled
    syncRequested: bool,
    // whether the synchronisation error notification is showing
    errorNotification: bool)

  /** How a phase of the pass ended. */
  datatype PhaseOutcome =
    | Completed
    | ProviderFailed(cause: string)   // a synchronisation failure thrown by the provider
    | Crashed                          // an unchecked exception

  /** A phase's new world and outcome. */
  datatype Step = Step(world: World, outcome: PhaseOutcome)

  /** What the worker reports to the job scheduler. */
  datatype WorkResult =
    | Success
    | Retry
    | Crash   // an unchecked exception escaped the worker
}

=== FILE: sync_rules.dfy ===
/**
 * The decisions a synchronisation pass takes, as functions of what it has
 * read: which provider is active, which remote changes to apply, what to
 * upload, which PLAY actions to build, and how a winning remote episode action
 * changes a local item.
 */
module SyncRules {

  import opened Wrappers
  import opened JavaInt
  import opened Lists
  import opened SyncModel

  // ---------------------------------------------------------------------------
  // Provider selection

  /** The selectable providers (SynchronizationProviderViewData). */
  datatype ProviderKind = Unset | GpodderNet | NextcloudGpodder

  /** The enum constant's name, the key under which a selection is stored. */
  function EnumName(k: ProviderKind): string
  {
    match k
    case Unset => "NONE"
    case GpodderNet => "GPODDER_NET"
    case NextcloudGpodder => "NEXTCLOUD_GPODDER"
  }

  /** `SynchronizationProviderViewData.valueOf(name)` on a non-null name; None where it throws. */
  function ProviderKindNamed(name: string): (r: Option<ProviderKind>)
    ensures r.Some? ==> EnumName(r.value) == name
  {
    if name == "NONE" then Some(Unset)
    else if name == "GPODDER_NET" then Some(GpodderNet)
    else if name == "NEXTCLOUD_GPODDER" then Some(NextcloudGpodder)
    else None
  }

  /** Every provider's stored name reads back as that provider. */
  lemma ProviderNameRoundTrip(k: ProviderKind)
    ensures ProviderKindNamed(EnumName(k)) == Some(k)
  {
  }

  /** What looking up the active provider yields. */
  datatype ProviderLookup =
    | NoProvider                    // `null`: nothing to synchronise with
    | Provider(kind: ProviderKind)  // a provider to run the pass against
    | Rejected                      // the lookup throws an unchecked exception

  /**
   * `getActiveSyncProvider` as written: `valueOf` on the stored key, which
   * throws on a null key as well as on an unknown name.
   */
  function ActiveProviderAsWritten(key: Option<string>): (r: ProviderLookup)
    ensures r.Rejected? <==> key.None? || ProviderKindNamed(key.value).None?
    ensures r == NoProvider <==> key == Some("NONE")
    ensures r.Provider? ==> r.kind != Unset && key == Some(EnumName(r.kind))
  {
    match key
    case None => Rejected
    case Some(name) =>
      match ProviderKindNamed(name)
      case None => Rejected
      case Some(Unset) => NoProvider
      case Some(k) => Provider(k)
  }

  /** An unset key makes the lookup as written throw instead of reporting "no provider". */
  lemma UnsetKeyRejectedAsWritten()
    ensures ActiveProviderAsWritten(None) == Rejected
    ensures ActiveProvider(None) == NoProvider
  {
  }

  /** The lookup with an unset key read as "no provider selected". */
  function ActiveProvider(key: Option<string>): (r: ProviderLookup)
    ensures r == NoProvider <==> key.None? || key == Some("NONE")
    ensures key.Some? ==> r == ActiveProviderAsWritten(key)
    ensures r.Rejected? ==> key.Some? && ProviderKindNamed(key.value).None?
  {
    if key.None? then NoProvider else ActiveProviderAsWritten(key)
  }

  /** Whether the enqueue operations record anything: a provider is selected and connected. */
  predicate HasActiveSyncProvider(s: Settings)
    ensures HasActiveSyncProvider(s) ==> ActiveProviderAsWritten(s.selectedProviderKey) == ActiveProvider(s.selectedProviderKey)
    ensures ActiveProvider(s.selectedProviderKey).Provider? && s.providerConnected ==> HasActiveSyncProvider(s)
  {
    s.selectedProviderKey.Some? && s.providerConnected
  }

  // ---------------------------------------------------------------------------
  // Retry and notification

  /** Whether a failed pass raises the error notification. */
  predicate NotifiesOnFailure(runAttemptCount: nat)
    ensures NotifiesOnFailure(runAttemptCount) ==> runAttemptCount >= 2 && !NotifiesOnFailure(runAttemptCount - 1)
  {
    runAttemptCount % 3 == 2
  }

  /** Of any three consecutive attempts exactly one notifies, and the first two never do. */
  lemma NotifiesOncePerThreeAttempts(n: nat)
    ensures NotifiesOnFailure(n) || NotifiesOnFailure(n + 1) || NotifiesOnFailure(n + 2)
    ensures NotifiesOnFailure(n) ==> !NotifiesOnFailure(n + 1) && !NotifiesOnFailure(n + 2)
    ensures n < 2 ==> !NotifiesOnFailure(n)
  {
  }

  // ---------------------------------------------------------------------------
  // Subscription reconciliation

  /**
   * The remote-added URLs the pass downloads, in the order the provider
   * reported them; FeedsToDownloadMembers says which they are.
   */
  function FeedsToDownload(added: seq<string>, local: seq<string>, queuedRemoved: seq<string>,
                           containsUrl: (seq<string>, string) -> bool): (r: seq<string>)
    ensures |r| <= |added|
  {
    if added == [] then []
    else
      var u := added[|added| - 1];
      FeedsToDownload(added[..|added| - 1], local, queuedRemoved, containsUrl)
        + (if !containsUrl(local, u) && u !in queuedRemoved then [u] else [])
  }

  /** A URL is downloaded iff the remote added it and it is neither subscribed locally nor queued for removal. */
  lemma {:induction false} FeedsToDownloadMembers(added: seq<string>, local: seq<string>, queuedRemoved: seq<string>,
                                                  containsUrl: (seq<string>, string) -> bool, u: string)
    ensures u in FeedsToDownload(added, local, queuedRemoved, containsUrl)
        <==> u in added && !containsUrl(local, u) && u !in queuedRemoved
  {
    if added != [] {
      var front := added[..|added| - 1];
      FeedsToDownloadMembers(front, local, queuedRemoved, containsUrl, u);
      assert added == front + [added[|added| - 1]];
    }
  }

  /** The remote-removed URLs the pass unsubscribes locally; FeedsToRemoveMembers says which they are. */
  function FeedsToRemove(removed: seq<string>, queuedAdded: seq<string>): (r: seq<string>)
    ensures |r| <= |removed|
  {
    if removed == [] then []
    else
      var u := removed[|removed| - 1];
      FeedsToRemove(removed[..|removed| - 1], queuedAdded) + (if u !in queuedAdded then [u] else [])
  }

  /** A URL is unsubscribed iff the remote removed it and it is not queued as added. */
  lemma {:induction false} FeedsToRemoveMembers(removed: seq<string>, queuedAdded: seq<string>, u: string)
    ensures u in FeedsToRemove(removed, queuedAdded) <==> u in removed && u !in queuedAdded
  {
    if removed != [] {
      var front := removed[..|removed| - 1];
      FeedsToRemoveMembers(front, queuedAdded, u);
      assert removed == front + [removed[|removed| - 1]];
    }
  }

  /**
   * The (added, removed) lists the subscription phase uploads. After an
   * incremental fetch they are the queued lists; on the first sync the local
   * subscriptions not reported as added replace the queued additions, and the
   * queued removals lose those the server already reported.
   */
  function SubscriptionUpload(lastSync: int, local: seq<string>, changes: SubscriptionChanges, q: PendingQueue)
    : (r: (seq<string>, seq<string>))
    ensures lastSync != 0 ==> r == (q.added, q.removed)
    ensures lastSync == 0 ==> forall u :: (u in r.0 <==> u in local && u !in changes.added)
                                         && (u in r.1 <==> u in q.removed && u !in changes.removed)
  {
    if lastSync == 0 then (Minus(local, changes.added), Minus(q.removed, changes.removed))
    else (q.added, q.removed)
  }

  // ---------------------------------------------------------------------------
  // Building PLAY actions

  /** `new EpisodeAction.Builder(item, kind)` with the given clock reading and offsets. */
  function ActionFor(item: FeedItem, media: FeedMedia, kind: ActionKind, now: int,
                     started: Int32, position: Int32, total: Int32): EpisodeAction
  {
    EpisodeAction(item.feedUrl, media.downloadUrl, item.identifier, kind, now, started, position, total)
  }

  /**
   * The PLAY action recorded when playback of `media` stops, or None when the
   * guard refuses: no owning item, a negative start, or an unfinished episode
   * that did not advance.
   */
  function EpisodePlayedAction(media: FeedMedia, item: Option<FeedItem>, completed: bool, now: int)
    : (r: Option<EpisodeAction>)
    ensures r.None? <==> item.None? || media.startPosition < 0
                         || (!completed && media.startPosition >= media.position)
    ensures r.Some? ==> r.value.kind == Play && r.value.timestamp == now
                        && r.value.podcast == item.value.feedUrl
                        && r.value.guid == item.value.identifier && r.value.episode == media.downloadUrl
                        && r.value.started == Secs(media.startPosition)
                        && r.value.position == Secs(if completed then media.duration else media.position)
                        && r.value.total == Secs(media.duration)
  {
    if item.None? then None
    else if media.startPosition < 0 || (!completed && media.startPosition >= media.position) then None
    else
      Some(ActionFor(item.value, media, Play, now, Secs(media.startPosition),
                     Secs(if completed then media.duration else media.position), Secs(media.duration)))
  }

  /**
   * A recorded PLAY action keeps 0 <= started <= position <= total whenever the
   * media's own offsets are ordered that way.
   */
  lemma PlayedActionOrdered(media: FeedMedia, item: Option<FeedItem>, completed: bool, now: int)
    requires EpisodePlayedAction(media, item, completed, now).Some?
    requires media.startPosition <= media.duration
    requires media.position <= media.duration
    ensures var a := EpisodePlayedAction(media, item, completed, now).value;
            0 <= a.started <= a.position <= a.total
  {
    SecsMonotonic(0, media.startPosition);
    if completed {
      SecsMonotonic(media.startPosition, media.duration);
    } else {
      SecsMonotonic(media.startPosition, media.position);
      SecsMonotonic(media.position, media.duration);
    }
  }

  /** `DBReader.getPlayedItems`: the played rows of the item table, in table order. */
  function PlayedItems(items: seq<FeedItem>): (r: seq<FeedItem>)
    ensures forall it :: it in r <==> it in items && it.played
    ensures |r| <= |items|
  {
    if items == [] then []
    else (if items[0].played then [items[0]] else []) + PlayedItems(items[1..])
  }

  /** The played history keeps table order: reading two parts of the table reads each in turn. */
  lemma {:induction false} PlayedItemsConcat(a: seq<FeedItem>, b: seq<FeedItem>)
    ensures PlayedItems(a + b) == PlayedItems(a) + PlayedItems(b)
  {
    if a == [] {
      assert a + b == b;
    } else {
      var head := if a[0].played then [a[0]] else [];
      calc {
        PlayedItems(a + b);
      == { assert (a + b)[0] == a[0] && (a + b)[1..] == a[1..] + b; }
        head + PlayedItems(a[1..] + b);
      == { PlayedItemsConcat(a[1..], b); }
        head + (PlayedItems(a[1..]) + PlayedItems(b));
      ==
        PlayedItems(a) + PlayedItems(b);
      }
    }
  }

  /** The PLAY action a first sync announces for a played item: start, position and total at its duration. */
  function CompletionAction(item: FeedItem, now: int): (a: EpisodeAction)
    requires item.media.Some?
  {
    var d := Secs(item.media.value.duration);
    ActionFor(item, item.media.value, Play, now, d, d, d)
  }

  /** How many of the items have media. */
  function MediaCount(items: seq<FeedItem>): nat
  {
    if items == [] then 0
    else MediaCount(items[..|items| - 1]) + (if items[|items| - 1].media.Some? then 1 else 0)
  }

  /**
   * The actions a first sync adds for the played items: exactly one PLAY
   * action at full duration for each item with media, none for the others.
   */
  function FirstSyncPlayActions(read: seq<FeedItem>, now: int): (r: seq<EpisodeAction>)
    ensures |r| == MediaCount(read)
    ensures forall a :: a in r ==> a.kind == Play && a.started == a.position == a.total && a.timestamp == now
    ensures forall it :: it in read && it.media.Some? ==> CompletionAction(it, now) in r
    ensures forall a :: a in r ==> exists it :: it in read && it.media.Some? && a == CompletionAction(it, now)
  {
    if read == [] then []
    else
      var it := read[|read| - 1];
      FirstSyncPlayActions(read[..|read| - 1], now) + (if it.media.Some? then [CompletionAction(it, now)] else [])
  }

  /** The episode actions the phase uploads: the queued ones, plus on a first sync the played history. */
  function ActionsToUpload(lastSync: int, queued: seq<EpisodeAction>, items: seq<FeedItem>, now: int)
    : (r: seq<EpisodeAction>)
    ensures |queued| <= |r| && r[..|queued|] == queued
    ensures |r| == |queued| + (if lastSync == 0 then MediaCount(PlayedItems(items)) else 0)
    ensures forall j :: |queued| <= j < |r| ==>
              r[j].kind == Play && r[j].started == r[j].position == r[j].total && r[j].timestamp == now
              && exists it :: it in items && it.played && it.media.Some? && r[j] == CompletionAction(it, now)
  {
    if lastSync == 0 then queued + FirstSyncPlayActions(PlayedItems(items), now) else queued
  }

  // ---------------------------------------------------------------------------
  // Applying the winning remote episode actions

  /** The row of the item table holding the item with this id. */
  function IndexOfItem(items: seq<FeedItem>, id: int): (r: Option<nat>)
    ensures r.Some? ==> r.value < |items| && items[r.value].id == id
    ensures r.Some? ==> forall k :: 0 <= k < r.value ==> items[k].id != id
    ensures r.None? ==> forall k :: 0 <= k < |items| ==> items[k].id != id
  {
    if items == [] then None
    else if items[0].id == id then Some(0)
    else
      match IndexOfItem(items[1..], id)
      case None => None
      case Some(k) => Some(k + 1)
  }

  /** The id `DBReader.getFeedItemByGuidOrEpisodeUrl` finds for an action, passing its GUID only when it is valid. */
  function LookupId(a: EpisodeAction, env: Collaborators): Option<int>
  {
    env.findItem(if env.isValidGuid(a.guid) then a.guid else None, a.episode)
  }

  /** The local row an action refers to: looked up by its GUID when that is valid, else by episode URL. */
  function FindRow(items: seq<FeedItem>, a: EpisodeAction, env: Collaborators): (r: Option<nat>)
    ensures var found := env.findItem(if env.isValidGuid(a.guid) then a.guid else None, a.episode);
            && (r.Some? <==> found.Some? && exists k :: 0 <= k < |items| && items[k].id == found.value)
            && (r.Some? ==> r.value < |items| && items[r.value].id == found.value)
  {
    match LookupId(a, env)
    case None => None
    case Some(id) => IndexOfItem(items, id)
  }

  /**
   * The state of applying winning actions one by one: the item table (NEW
   * actions write it at once), the items to write back, the ids to drop from
   * the play queue, and whether an unchecked exception stopped the loop.
   */
  datatype Applied = Applied(items: seq<FeedItem>, updated: seq<FeedItem>, toDequeue: seq<int>, crashed: bool)

  /** The new playback state an item takes from a winning non-NEW action. */
  function PositionedItem(item: FeedItem, a: EpisodeAction, env: Collaborators): (r: FeedItem)
    requires item.media.Some?
    ensures r.id == item.id && r.media.Some?
    ensures r.media.value == item.media.value.(position := Wrap32(a.position as int * 1000))
    ensures r.played == (item.played || env.hasAlmostEnded(r.media.value))
    ensures r == item.(media := r.media, played := r.played)
  {
    var media := item.media.value.(position := Wrap32(a.position as int * 1000));
    item.(media := Some(media), played := if env.hasAlmostEnded(media) then true else item.played)
  }

  /** One iteration of the loop over the winning actions. */
  function ApplyWinner(acc: Applied, a: EpisodeAction, env: Collaborators): (r: Applied)
    ensures acc.crashed ==> r == acc
    ensures |r.items| == |acc.items| && acc.updated <= r.updated && |r.updated| <= |acc.updated| + 1
    ensures r.crashed ==> r.updated == acc.updated && r.toDequeue == acc.toDequeue
  {
    if acc.crashed then acc
    else
      match FindRow(acc.items, a, env)
      case None => acc
      case Some(k) =>
        var item := acc.items[k];
        if a.kind == New then acc.(items := acc.items[k := item.(played := false)])
        else if item.media.None? then acc.(crashed := true)
        else
          var item' := PositionedItem(item, a, env);
          acc.(updated := acc.updated + [item'],
               toDequeue := acc.toDequeue + (if env.hasAlmostEnded(item'.media.value) then [item.id] else []))
  }

  /** The loop over all winning actions, in order. */
  function ApplyAll(acc: Applied, ws: seq<EpisodeAction>, env: Collaborators): (r: Applied)
    ensures |r.items| == |acc.items| && acc.updated <= r.updated && |r.updated| <= |acc.updated| + |ws|
    ensures acc.crashed ==> r == acc
  {
    if ws == [] then acc else ApplyWinner(ApplyAll(acc, ws[..|ws| - 1], env), ws[|ws| - 1], env)
  }

  /**
   * What one winning action does: an unknown item is skipped; NEW marks the
   * item unplayed and touches nothing else; any other kind on an item with
   * media queues the item for writing back with the action's position in
   * milliseconds, played and dropped from the play queue when it has almost
   * ended.
   */
  lemma ApplyWinnerEffect(acc: Applied, a: EpisodeAction, env: Collaborators)
    requires !acc.crashed
    ensures FindRow(acc.items, a, env).None? ==> ApplyWinner(acc, a, env) == acc
    ensures var r := ApplyWinner(acc, a, env);
            FindRow(acc.items, a, env).Some? && a.kind == New ==>
              var k := FindRow(acc.items, a, env).value;
              && r.items == acc.items[k := acc.items[k].(played := false)]
              && r.updated == acc.updated && r.toDequeue == acc.toDequeue && !r.crashed
    ensures var r := ApplyWinner(acc, a, env);
            FindRow(acc.items, a, env).Some? && a.kind != New ==>
              var item := acc.items[FindRow(acc.items, a, env).value];
              if item.media.None? then r.crashed
              else
                var ended := env.hasAlmostEnded(item.media.value.(position := Wrap32(a.position as int * 1000)));
                && r.items == acc.items && !r.crashed
                && r.updated == acc.updated + [PositionedItem(item, a, env)]
                && r.toDequeue == acc.toDequeue + (if ended then [item.id] else [])
  {
  }

  /** Once the loop has crashed, later actions change nothing. */
  lemma {:induction false} ApplyAllCrashAbsorbs(acc: Applied, ws: seq<EpisodeAction>, j: nat, env: Collaborators)
    requires j <= |ws|
    requires ApplyAll(acc, ws[..j], env).crashed
    ensures ApplyAll(acc, ws, env) == ApplyAll(acc, ws[..j], env)
  {
    if j < |ws| {
      assert ws[..|ws| - 1][..j] == ws[..j];
      ApplyAllCrashAbsorbs(acc, ws[..|ws| - 1], j, env);
    } else {
      assert ws[..j] == ws;
    }
  }

  /**
   * The loop never adds, drops or reorders rows and changes nothing in a row
   * but its played flag (which NEW actions clear). What it has collected
   * before is kept.
   */
  lemma {:induction false} ApplyAllKeepsTable(acc: Applied, ws: seq<EpisodeAction>, env: Collaborators)
    ensures var r := ApplyAll(acc, ws, env);
            && |r.items| == |acc.items|
            && (forall k :: 0 <= k < |acc.items| ==> r.items[k] == acc.items[k].(played := r.items[k].played))
            && |acc.updated| <= |r.updated| && r.updated[..|acc.updated|] == acc.updated
            && |acc.toDequeue| <= |r.toDequeue| && r.toDequeue[..|acc.toDequeue|] == acc.toDequeue
  {
    if ws != [] {
      ApplyAllKeepsTable(acc, ws[..|ws| - 1], env);
      var prev := ApplyAll(acc, ws[..|ws| - 1], env);
      var r := ApplyWinner(prev, ws[|ws| - 1], env);
      assert r.updated[..|prev.updated|] == prev.updated;
      assert r.toDequeue[..|prev.toDequeue|] == prev.toDequeue;
      assert r.updated[..|acc.updated|] == prev.updated[..|acc.updated|];
      assert r.toDequeue[..|acc.toDequeue|] == prev.toDequeue[..|acc.toDequeue|];
    }
  }

  /** Every id queued for removal from the play queue belongs to an item written back as played. */
  ghost predicate DequeuedArePlayed(acc: Applied)
  {
    forall id :: id in acc.toDequeue ==> exists u :: u in acc.updated && u.id == id && u.played
  }

  /** Every item written back exists in the item table. */
  ghost predicate UpdatesKnownItems(acc: Applied)
  {
    forall u :: u in acc.updated ==> exists k :: 0 <= k < |acc.items| && acc.items[k].id == u.id
  }

  /** The loop keeps both: only known items are written back, and only played ones leave the play queue. */
  lemma {:induction false} ApplyAllConsistent(acc: Applied, ws: seq<EpisodeAction>, env: Collaborators)
    requires DequeuedArePlayed(acc) && UpdatesKnownItems(acc)
    ensures DequeuedArePlayed(ApplyAll(acc, ws, env)) && UpdatesKnownItems(ApplyAll(acc, ws, env))
  {
    if ws != [] {
      var prev := ApplyAll(acc, ws[..|ws| - 1], env);
      ApplyAllConsistent(acc, ws[..|ws| - 1], env);
      var a := ws[|ws| - 1];
      var r := ApplyWinner(prev, a, env);
      if !prev.crashed && FindRow(prev.items, a, env).Some? {
        var k := FindRow(prev.items, a, env).value;
        if a.kind == New {
          forall u | u in r.updated ensures exists j :: 0 <= j < |r.items| && r.items[j].id == u.id {
            var j :| 0 <= j < |prev.items| && prev.items[j].id == u.id;
            assert r.items[j].id == u.id;
          }
        } else if prev.items[k].media.Some? {
          var item' := PositionedItem(prev.items[k], a, env);
          assert r.updated == prev.updated + [item'];
          forall u | u in r.updated ensures exists j :: 0 <= j < |r.items| && r.items[j].id == u.id {
            if u == item' {
              assert r.items[k].id == u.id;
            }
          }
          forall id | id in r.toDequeue ensures exists u :: u in r.updated && u.id == id && u.played {
            if id !in prev.toDequeue {
              assert item' in r.updated && item'.id == id && item'.played;
            } else {
              var u :| u in prev.updated && u.id == id && u.played;
              assert u in r.updated;
            }
          }
        }
      }
    }
  }

  /**
   * Everything written back comes from a non-NEW action whose lookup found
   * that item: its media position is that action's position in milliseconds.
   */
  lemma {:induction false} ApplyAllWritesPositions(acc: Applied, ws: seq<EpisodeAction>, env: Collaborators)
    ensures var r := ApplyAll(acc, ws, env);
            |acc.updated| <= |r.updated| <= |acc.updated| + |ws|
            && forall j :: |acc.updated| <= j < |r.updated| ==>
                 exists a :: a in ws && a.kind != New && LookupId(a, env) == Some(r.updated[j].id)
                             && r.updated[j].media.Some?
                             && r.updated[j].media.value.position == Wrap32(a.position as int * 1000)
  {
    if ws != [] {
      var init := ws[..|ws| - 1];
      ApplyAllWritesPositions(acc, init, env);
      var prev := ApplyAll(acc, init, env);
      var a := ws[|ws| - 1];
      var r := ApplyWinner(prev, a, env);
      forall j | |acc.updated| <= j < |r.updated|
        ensures exists b :: b in ws && b.kind != New && LookupId(b, env) == Some(r.updated[j].id)
                            && r.updated[j].media.Some?
                            && r.updated[j].media.value.position == Wrap32(b.position as int * 1000)
      {
        if j < |prev.updated| {
          var b :| b in init && b.kind != New && LookupId(b, env) == Some(prev.updated[j].id)
                   && prev.updated[j].media.Some?
                   && prev.updated[j].media.value.position == Wrap32(b.position as int * 1000);
          assert r.updated[j] == prev.updated[j];
          assert b in ws;
        } else {
          var k := FindRow(prev.items, a, env).value;
          assert r.updated[j] == PositionedItem(prev.items[k], a, env);
          assert a in ws;
        }
      }
    }
  }

  /** Tables whose rows hold the same ids, row by row, have the same first row for every id. */
  lemma {:induction false} SameIdsSameIndex(items: seq<FeedItem>, other: seq<FeedItem>, id: int)
    requires |items| == |other|
    requires forall k :: 0 <= k < |items| ==> items[k].id == other[k].id
    ensures IndexOfItem(items, id) == IndexOfItem(other, id)
  {
    if items != [] {
      SameIdsSameIndex(items[1..], other[1..], id);
    }
  }

  /** A non-NEW action that finds a row and does not stop the loop writes that row's item back at its position. */
  lemma ApplyWinnerWritesFound(acc: Applied, a: EpisodeAction, env: Collaborators)
    requires !ApplyWinner(acc, a, env).crashed
    requires a.kind != New && FindRow(acc.items, a, env).Some?
    ensures var item := acc.items[FindRow(acc.items, a, env).value];
            item.media.Some?
            && PositionedItem(item, a, env) in ApplyWinner(acc, a, env).updated
            && PositionedItem(item, a, env).media.value.position == Wrap32(a.position as int * 1000)
  {
    ApplyWinnerEffect(acc, a, env);
  }

  /**
   * The converse of ApplyAllWritesPositions: when the loop runs to the end,
   * every non-NEW action whose lookup finds a row writes that row's item back
   * with the action's position in milliseconds.
   */
  lemma {:induction false} ApplyAllWritesEveryWinner(acc: Applied, ws: seq<EpisodeAction>, env: Collaborators, i: nat)
    requires i < |ws| && !ApplyAll(acc, ws, env).crashed
    requires ws[i].kind != New && FindRow(acc.items, ws[i], env).Some?
    ensures exists u :: u in ApplyAll(acc, ws, env).updated
                        && u.id == acc.items[FindRow(acc.items, ws[i], env).value].id && u.media.Some?
                        && u.media.value.position == Wrap32(ws[i].position as int * 1000)
  {
    var init := ws[..|ws| - 1];
    var prev := ApplyAll(acc, init, env);
    var r := ApplyAll(acc, ws, env);
    assert r == ApplyWinner(prev, ws[|ws| - 1], env);
    assert !prev.crashed;
    if i == |ws| - 1 {
      ApplyAllKeepsTable(acc, init, env);
      SameIdsSameIndex(acc.items, prev.items, LookupId(ws[i], env).value);
      assert FindRow(prev.items, ws[i], env) == FindRow(acc.items, ws[i], env);
      ApplyWinnerWritesFound(prev, ws[i], env);
    } else {
      assert init[i] == ws[i];
      ApplyAllWritesEveryWinner(acc, init, env, i);
      var u :| u in prev.updated && u.id == acc.items[FindRow(acc.items, ws[i], env).value].id && u.media.Some?
               && u.media.value.position == Wrap32(ws[i].position as int * 1000);
      assert u in r.updated;
    }
  }

  /**
   * An item written back whose media has almost ended is written back as
   * played, and its id is queued for removal from the play queue.
   */
  lemma {:induction false} ApplyAllEndedArePlayed(acc: Applied, ws: seq<EpisodeAction>, env: Collaborators, j: nat)
    requires var r := ApplyAll(acc, ws, env);
             |acc.updated| <= j < |r.updated| && r.updated[j].media.Some? && env.hasAlmostEnded(r.updated[j].media.value)
    ensures var r := ApplyAll(acc, ws, env);
            r.updated[j].played && r.updated[j].id in r.toDequeue
  {
    var init := ws[..|ws| - 1];
    var prev := ApplyAll(acc, init, env);
    var a := ws[|ws| - 1];
    var r := ApplyWinner(prev, a, env);
    assert r == ApplyAll(acc, ws, env);
    if !prev.crashed {
      ApplyWinnerEffect(prev, a, env);
    }
    if j < |prev.updated| {
      assert r.updated[j] == prev.updated[j];
      ApplyAllEndedArePlayed(acc, init, env, j);
      assert prev.updated[j].id in r.toDequeue;
    } else {
      var item := prev.items[FindRow(prev.items, a, env).value];
      assert r.updated[j] == PositionedItem(item, a, env);
      assert r.toDequeue == prev.toDequeue + [item.id];
    }
  }

  /** No step of the loop sets a played flag in the table; NEW actions only clear them. */
  lemma ApplyWinnerNeverPlays(acc: Applied, a: EpisodeAction, env: Collaborators)
    ensures var r := ApplyWinner(acc, a, env);
            forall k :: 0 <= k < |acc.items| && r.items[k].played ==> acc.items[k].played
  {
    if !acc.crashed {
      ApplyWinnerEffect(acc, a, env);
    }
  }

  /**
   * A NEW action that finds a row leaves it unplayed in the table for the
   * rest of the loop, when the loop runs to the end.
   */
  lemma {:induction false} ApplyAllNewUnplays(acc: Applied, ws: seq<EpisodeAction>, env: Collaborators, i: nat)
    requires i < |ws| && !ApplyAll(acc, ws, env).crashed
    requires ws[i].kind == New && FindRow(acc.items, ws[i], env).Some?
    ensures !ApplyAll(acc, ws, env).items[FindRow(acc.items, ws[i], env).value].played
  {
    var init := ws[..|ws| - 1];
    var prev := ApplyAll(acc, init, env);
    var r := ApplyAll(acc, ws, env);
    var k := FindRow(acc.items, ws[i], env).value;
    assert r == ApplyWinner(prev, ws[|ws| - 1], env);
    assert !prev.crashed;
    if i == |ws| - 1 {
      ApplyAllKeepsTable(acc, init, env);
      SameIdsSameIndex(acc.items, prev.items, LookupId(ws[i], env).value);
      assert FindRow(prev.items, ws[i], env) == Some(k);
      ApplyWinnerEffect(prev, ws[i], env);
    } else {
      assert init[i] == ws[i];
      ApplyAllNewUnplays(acc, init, env, i);
      ApplyWinnerNeverPlays(prev, ws[|ws| - 1], env);
    }
  }

  /** setItemList for one item: every row with its id takes the new version. */
  function WriteRow(items: seq<FeedItem>, it: FeedItem): (r: seq<FeedItem>)
    ensures |r| == |items|
    ensures forall k :: 0 <= k < |items| ==> r[k] == (if items[k].id == it.id then it else items[k])
  {
    seq(|items|, k requires 0 <= k < |items| => if items[k].id == it.id then it else items[k])
  }

  /**
   * `DBWriter.setItemList(updated)`: each updated item overwrites the rows
   * with its id, later versions over earlier ones; other rows keep their value.
   */
  function WriteItems(items: seq<FeedItem>, updated: seq<FeedItem>): (r: seq<FeedItem>)
    ensures |r| == |items|
    ensures forall k :: 0 <= k < |items| ==> r[k].id == items[k].id
    ensures forall k :: 0 <= k < |items| ==> r[k] == items[k] || r[k] in updated
    ensures forall k :: 0 <= k < |items| && (forall u :: u in updated ==> u.id != items[k].id) ==> r[k] == items[k]
  {
    if updated == [] then items else WriteRow(WriteItems(items, updated[..|updated| - 1]), updated[|updated| - 1])
  }

  /** A row some update names holds the last update with its id. */
  lemma {:induction false} WriteItemsLastWins(items: seq<FeedItem>, updated: seq<FeedItem>, k: nat, j: nat)
    requires k < |items| && j < |updated| && updated[j].id == items[k].id
    requires forall j' :: j < j' < |updated| ==> updated[j'].id != items[k].id
    ensures WriteItems(items, updated)[k] == updated[j]
  {
    if j < |updated| - 1 {
      WriteItemsLastWins(items, updated[..|updated| - 1], k, j);
    }
  }

  /** Any update of an id is followed, possibly at itself, by a last update of that id. */
  lemma LastUpdateExists(updated: seq<FeedItem>, id: int, j: nat)
    requires j < |updated| && updated[j].id == id
    ensures exists l :: j <= l < |updated| && updated[l].id == id
                        && forall l' :: l < l' < |updated| ==> updated[l'].id != id
    decreases |updated| - j
  {
    if exists l :: j < l < |updated| && updated[l].id == id {
      var l :| j < l < |updated| && updated[l].id == id;
      LastUpdateExists(updated, id, l);
    }
  }

  // ---------------------------------------------------------------------------
  // The pending-change queue

  /** Queue a subscription: insert once into the added list, dropping a queued removal of the same URL. */
  function WithFeedAdded(q: PendingQueue, url: string): (r: PendingQueue)
    ensures url in r.added && url !in r.removed && r.actions == q.actions
    ensures forall u :: u != url ==> (u in r.added <==> u in q.added) && (u in r.removed <==> u in q.removed)
  {
    q.(added := if url in q.added then q.added else q.added + [url], removed := Minus(q.removed, [url]))
  }

  /** Queue an unsubscription: insert once into the removed list, dropping a queued addition of the same URL. */
  function WithFeedRemoved(q: PendingQueue, url: string): (r: PendingQueue)
    ensures url in r.removed && url !in r.added && r.actions == q.actions
    ensures forall u :: u != url ==> (u in r.added <==> u in q.added) && (u in r.removed <==> u in q.removed)
  {
    q.(removed := if url in q.removed then q.removed else q.removed + [url], added := Minus(q.added, [url]))
  }

  /** Removing the same URLs twice removes nothing more. */
  lemma {:induction false} MinusTwice(a: seq<string>, b: seq<string>)
    ensures Minus(Minus(a, b), b) == Minus(a, b)
  {
    if a != [] {
      MinusTwice(a[1..], b);
      if a[0] !in b {
        var m := Minus(a, b);
        assert m == [a[0]] + Minus(a[1..], b);
        assert m[0] == a[0] && m[1..] == Minus(a[1..], b);
        assert Minus(m, b) == [m[0]] + Minus(m[1..], b);
      } else {
        assert Minus(a, b) == [] + Minus(a[1..], b);
        assert Minus(a, b) == Minus(a[1..], b);
      }
    }
  }

  /** Queuing the same subscription twice is the same as queuing it once. */
  lemma QueueFeedAddedIdempotent(q: PendingQueue, url: string)
    ensures WithFeedAdded(WithFeedAdded(q, url), url) == WithFeedAdded(q, url)
  {
    MinusTwice(q.removed, [url]);
  }

  /** Queuing the same unsubscription twice is the same as queuing it once. */
  lemma QueueFeedRemovedIdempotent(q: PendingQueue, url: string)
    ensures WithFeedRemoved(WithFeedRemoved(q, url), url) == WithFeedRemoved(q, url)
  {
    MinusTwice(q.added, [url]);
  }

  /** An unsubscription queued after a subscription cancels it: only the removal is left to upload. */
  lemma LaterRemovalCancelsAddition(q: PendingQueue, url: string)
    ensures var r := WithFeedRemoved(WithFeedAdded(q, url), url);
            url !in r.added && url in r.removed && r.actions == q.actions
  {
  }
}

=== FILE: sync_service.dfy ===
/**
 * The synchronisation worker and the entry points beside it, acting on the
 * device's persisted state held in one object: settings, pending queue,
 * subscriptions, item table and play queue, together with what the worker
 * has asked of the provider, the downloader and the unsubscribe operation.
 * Every method is proved to take the state to the one its specification
 * function describes.
 */
module SyncWorker {

  import opened Wrappers
  import opened JavaInt
  import opened Lists
  import opened SyncModel
  import opened SyncRules
  import opened SyncSpec

  class SyncService {
    var settings: Settings
    var queue: PendingQueue
    var subscriptions: seq<string>
    var items: seq<FeedItem>
    var playQueue: seq<int>
    var calls: seq<ProviderCall>
    var feedDownloads: seq<string>
    var feedRemovals: seq<string>
    var syncRequested: bool
    var errorNotification: bool

    /** The state as one value. */
    function State(): World
      reads this
    {
      World(settings, queue, subscriptions, items, playQueue, calls, feedDownloads, feedRemovals,
            syncRequested, errorNotification)
    }

    constructor (w: World)
      ensures State() == w
    {
      settings, queue, subscriptions, items, playQueue := w.settings, w.queue, w.subscriptions, w.items, w.playQueue;
      calls, feedDownloads, feedRemovals := w.calls, w.feedDownloads, w.feedRemovals;
      syncRequested, errorNotification := w.syncRequested, w.errorNotification;
    }

    /** One pass: provider lookup, attempt bookkeeping, both phases, and the retry decision. */
    method DoWork(p: ProviderAnswers, env: Collaborators, now: int, runAttemptCount: nat, notificationsEnabled: bool)
      returns (r: WorkResult)
      modifies this
      ensures Work(State(), r) == Pass(old(State()), p, env, now, runAttemptCount, notificationsEnabled)
    {
      var provider := ActiveProvider(settings.selectedProviderKey);
      if provider.NoProvider? {
        return Success;
      }
      if provider.Rejected? {
        return Crash;
      }
      settings := settings.(lastAttempt := now);

      var outcome := Synchronize(p, env, now);

      match outcome {
        case Completed =>
          errorNotification := false;
          settings := settings.(lastAttemptSuccess := true);
          r := Success;
        case ProviderFailed(_) =>
          settings := settings.(lastAttemptSuccess := false);
          if NotifiesOnFailure(runAttemptCount) && notificationsEnabled {
            errorNotification := true;
          }
          r := Retry;
        case Crashed =>
          r := Crash;
      }
    }

    /** The try block of doWork: log in, both phases, log out; the first failure ends it. */
    method Synchronize(p: ProviderAnswers, env: Collaborators, now: int) returns (outcome: PhaseOutcome)
      modifies this
      ensures Step(State(), outcome) == Session(old(State()), p, env, now)
    {
      calls := calls + [Login];
      if p.login.Failed? {
        return ProviderFailed(p.login.cause);
      }
      outcome := SyncSubscriptions(p, env);
      if !outcome.Completed? {
        return;
      }
      outcome := SyncEpisodeActions(p, env, now);
      if !outcome.Completed? {
        return;
      }
      calls := calls + [Logout];
      if p.logout.Failed? {
        outcome := ProviderFailed(p.logout.cause);
      }
    }

    /** The subscription phase. */
    method SyncSubscriptions(p: ProviderAnswers, env: Collaborators) returns (outcome: PhaseOutcome)
      modifies this
      ensures Step(State(), outcome) == SubscriptionPhase(old(State()), p, env)
    {
      var lastSync := settings.lastSubscriptionSync;
      var localSubscriptions := subscriptions;
      calls := calls + [GetSubscriptionChanges(lastSync)];
      if p.subscriptionChanges.Failed? {
        return ProviderFailed(p.subscriptionChanges.cause);
      }
      var changes := p.subscriptionChanges.value;
      var newTimeStamp := changes.timestamp;
      ghost var fetched := State();
      ApplyRemoteSubscriptionChanges(changes, env);
      ghost var applied := State();
      var queuedRemovedFeeds := queue.removed;
      var queuedAddedFeeds := queue.added;

      if lastSync == 0 {
        queuedAddedFeeds := Minus(localSubscriptions, changes.added);
        queuedRemovedFeeds := Minus(queuedRemovedFeeds, changes.removed);
      }
      assert (queuedAddedFeeds, queuedRemovedFeeds) == SubscriptionUpload(lastSync, localSubscriptions, changes, fetched.queue);

      if |queuedAddedFeeds| > 0 || |queuedRemovedFeeds| > 0 {
        calls := calls + [UploadSubscriptionChanges(queuedAddedFeeds, queuedRemovedFeeds)];
        if p.subscriptionUpload.Failed? {
          return ProviderFailed(p.subscriptionUpload.cause);
        }
        queue := queue.(added := [], removed := []);
        newTimeStamp := p.subscriptionUpload.value;
      }
      settings := settings.(lastSubscriptionSync := newTimeStamp);
      outcome := Completed;
      assert Step(State(), outcome)
          == SubscriptionsUploaded(applied, (queuedAddedFeeds, queuedRemovedFeeds), p.subscriptionUpload, changes.timestamp);
    }

    /** Request the downloads and the local unsubscriptions the remote delta asks for. */
    method ApplyRemoteSubscriptionChanges(changes: SubscriptionChanges, env: Collaborators)
      modifies this
      ensures State() == RemoteSubscriptionChangesApplied(old(State()), changes, env)
    {
      var localSubscriptions := subscriptions;
      var queuedRemovedFeeds := queue.removed;
      var queuedAddedFeeds := queue.added;

      var added, removed := changes.added, changes.removed;
      var i := 0;
      while i < |added|
        invariant 0 <= i <= |added|
        invariant feedDownloads == old(feedDownloads) + FeedsToDownload(added[..i], localSubscriptions, queuedRemovedFeeds, env.containsUrl)
        modifies this`feedDownloads
      {
        var downloadUrl := added[i];
        ghost var before := FeedsToDownload(added[..i], localSubscriptions, queuedRemovedFeeds, env.containsUrl);
        assert added[..i + 1][..i] == added[..i];
        assert FeedsToDownload(added[..i + 1], localSubscriptions, queuedRemovedFeeds, env.containsUrl)
            == before + (if !env.containsUrl(localSubscriptions, downloadUrl) && downloadUrl !in queuedRemovedFeeds then [downloadUrl] else []);
        if !env.containsUrl(localSubscriptions, downloadUrl) && downloadUrl !in queuedRemovedFeeds {
          feedDownloads := feedDownloads + [downloadUrl];
        }
        i := i + 1;
      }
      assert added[..i] == added;

      var j := 0;
      while j < |removed|
        invariant 0 <= j <= |removed|
        invariant feedRemovals == old(feedRemovals) + FeedsToRemove(removed[..j], queuedAddedFeeds)
        modifies this`feedRemovals
      {
        var downloadUrl := removed[j];
        ghost var before := FeedsToRemove(removed[..j], queuedAddedFeeds);
        assert removed[..j + 1][..j] == removed[..j];
        assert FeedsToRemove(removed[..j + 1], queuedAddedFeeds) == before + (if downloadUrl !in queuedAddedFeeds then [downloadUrl] else []);
        if downloadUrl !in queuedAddedFeeds {
          feedRemovals := feedRemovals + [downloadUrl];
        }
        j := j + 1;
      }
      assert removed[..j] == removed;
    }

    /** The episode-action phase. */
    method SyncEpisodeActions(p: ProviderAnswers, env: Collaborators, now: int) returns (outcome: PhaseOutcome)
      modifies this
      ensures Step(State(), outcome) == EpisodeActionPhase(old(State()), p, env, now)
    {
      var lastSync := settings.lastEpisodeActionSync;
      calls := calls + [GetEpisodeActionChanges(lastSync)];
      if p.episodeActionChanges.Failed? {
        return ProviderFailed(p.episodeActionChanges.cause);
      }
      var getResponse := p.episodeActionChanges.value;
      var newTimeStamp := getResponse.timestamp;
      ghost var fetched := State();
      var crashed := ProcessEpisodeActions(getResponse.actions, env);
      if crashed {
        return Crashed;
      }
      ghost var applied := State();

      var queuedEpisodeActions := queue.actions;
      if lastSync == 0 {
        queuedEpisodeActions := WithFirstSyncActions(queuedEpisodeActions, PlayedItems(items), now);
      }
      assert queuedEpisodeActions == ActionsToUpload(lastSync, applied.queue.actions, applied.items, now);

      if |queuedEpisodeActions| > 0 {
        calls := calls + [UploadEpisodeActions(queuedEpisodeActions)];
        if p.episodeActionUpload.Failed? {
          return ProviderFailed(p.episodeActionUpload.cause);
        }
        newTimeStamp := p.episodeActionUpload.value;
        queue := queue.(actions := []);
      }
      settings := settings.(lastEpisodeActionSync := newTimeStamp);
      outcome := Completed;
      assert Step(State(), outcome)
          == EpisodeActionsUploaded(applied, queuedEpisodeActions, p.episodeActionUpload, getResponse.timestamp);
    }

    /** Apply the remote actions that win over the queued local ones to the item table and play queue. */
    method ProcessEpisodeActions(remoteActions: seq<EpisodeAction>, env: Collaborators) returns (crashed: bool)
      modifies this
      ensures (State(), crashed) == RemoteActionsApplied(old(State()), remoteActions, env)
    {
      if |remoteActions| == 0 {
        return false;
      }
      var playActionsToUpdate := env.overridingRemote(remoteActions, queue.actions);
      var updatedItems, queueToBeRemoved;
      updatedItems, queueToBeRemoved, crashed := ApplyWinners(playActionsToUpdate, env);
      if crashed {
        return;
      }
      playQueue := Minus(playQueue, queueToBeRemoved);
      items := WriteItems(items, updatedItems);
    }

    /**
     * The loop over the winning actions: NEW actions update the item table at
     * once, the others collect the items to write back and the ids to drop
     * from the play queue; an item without media stops the loop.
     */
    method ApplyWinners(playActionsToUpdate: seq<EpisodeAction>, env: Collaborators)
      returns (updatedItems: seq<FeedItem>, queueToBeRemoved: seq<int>, crashed: bool)
      modifies this`items
      ensures ApplyAll(Applied(old(items), [], [], false), playActionsToUpdate, env)
           == Applied(items, updatedItems, queueToBeRemoved, crashed)
    {
      ghost var start := Applied(items, [], [], false);
      queueToBeRemoved, updatedItems, crashed := [], [], false;
      var i := 0;
      while i < |playActionsToUpdate|
        invariant 0 <= i <= |playActionsToUpdate|
        invariant ApplyAll(start, playActionsToUpdate[..i], env) == Applied(items, updatedItems, queueToBeRemoved, false)
        modifies this`items
      {
        var action := playActionsToUpdate[i];
        assert playActionsToUpdate[..i + 1][..i] == playActionsToUpdate[..i];
        ghost var acc := Applied(items, updatedItems, queueToBeRemoved, false);
        assert ApplyAll(start, playActionsToUpdate[..i + 1], env) == ApplyWinner(acc, action, env);
        var guid := if env.isValidGuid(action.guid) then action.guid else None;
        var found := env.findItem(guid, action.episode);
        var row := if found.Some? then IndexOfItem(items, found.value) else None;
        assert row == FindRow(acc.items, action, env);
        if row.Some? {
          var k := row.value;
          var feedItem := items[k];
          if action.kind == New {
            items := items[k := feedItem.(played := false)];
          } else {
            if feedItem.media.None? {
              ApplyAllCrashAbsorbs(start, playActionsToUpdate, i + 1, env);
              return updatedItems, queueToBeRemoved, true;
            }
            var media := feedItem.media.value.(position := Wrap32(action.position as int * 1000));
            feedItem := feedItem.(media := Some(media));
            if env.hasAlmostEnded(media) {
              feedItem := feedItem.(played := true);
              queueToBeRemoved := queueToBeRemoved + [feedItem.id];
            }
            updatedItems := updatedItems + [feedItem];
          }
        }
        i := i + 1;
      }
      assert playActionsToUpdate[..i] == playActionsToUpdate;
    }

    /** Queue a subscription and request a pass, when a provider is active. */
    method EnqueueFeedAdded(downloadUrl: string, encodeOk: bool)
      modifies this
      ensures State() == AfterFeedAdded(old(State()), downloadUrl, encodeOk)
    {
      if !HasActiveSyncProvider(settings) {
        return;
      }
      if encodeOk {
        queue := WithFeedAdded(queue, downloadUrl);
      }
      syncRequested := true;
    }

    /** Queue an unsubscription and request a pass, when a provider is active. */
    method EnqueueFeedRemoved(downloadUrl: string, encodeOk: bool)
      modifies this
      ensures State() == AfterFeedRemoved(old(State()), downloadUrl, encodeOk)
    {
      if !HasActiveSyncProvider(settings) {
        return;
      }
      if encodeOk {
        queue := WithFeedRemoved(queue, downloadUrl);
      }
      syncRequested := true;
    }

    /** Queue an episode action and request a pass, when a provider is active. */
    method EnqueueEpisodeAction(action: EpisodeAction, encodeOk: bool)
      modifies this
      ensures State() == AfterEpisodeAction(old(State()), action, encodeOk)
    {
      if !HasActiveSyncProvider(settings) {
        return;
      }
      if encodeOk {
        queue := queue.(actions := queue.actions + [action]);
      }
      syncRequested := true;
    }

    /** Record the end of a playback as a PLAY action, when the guards allow. */
    method EnqueueEpisodePlayed(media: FeedMedia, item: Option<FeedItem>, completed: bool, now: int, encodeOk: bool)
      modifies this
      ensures State() == AfterEpisodePlayed(old(State()), media, item, completed, now, encodeOk)
    {
      if !HasActiveSyncProvider(settings) {
        return;
      }
      if item.None? {
        return;
      }
      if media.startPosition < 0 || (!completed && media.startPosition >= media.position) {
        return;
      }
      var action := ActionFor(item.value, media, Play, now, Secs(media.startPosition),
                              Secs(if completed then media.duration else media.position), Secs(media.duration));
      EnqueueEpisodeAction(action, encodeOk);
    }

    /** Forget both watermarks so that the next pass is a first sync, and request it. */
    method FullSync()
      modifies this
      ensures State() == AfterFullSync(old(State()))
    {
      settings := settings.(lastSubscriptionSync := 0, lastEpisodeActionSync := 0);
      syncRequested := true;
    }

    /** Drop every pending change. */
    method ClearQueue()
      modifies this
      ensures State() == AfterClearQueue(old(State()))
    {
      queue := PendingQueue([], [], []);
    }
  }

  /** The queued actions followed by a PLAY action at full duration for each read item that has media. */
  method WithFirstSyncActions(queued: seq<EpisodeAction>, readItems: seq<FeedItem>, now: int)
    returns (r: seq<EpisodeAction>)
    ensures r == queued + FirstSyncPlayActions(readItems, now)
  {
    r := queued;
    var i := 0;
    while i < |readItems|
      invariant 0 <= i <= |readItems|
      invariant r == queued + FirstSyncPlayActions(readItems[..i], now)
    {
      var item := readItems[i];
      if item.media.Some? {
        var d := Secs(item.media.value.duration);
        r := r + [ActionFor(item, item.media.value, Play, now, d, d, d)];
      }
      assert readItems[..i + 1][..i] == readItems[..i];
      i := i + 1;
    }
    assert readItems[..i] == readItems;
  }
}

=== FILE: sync_spec.dfy ===
/**
 * One synchronisation pass, phase by phase, as functions from the world
 * before to the world after; and the enqueue operations that feed it. The
 * lemmas state what the pass promises about queues, watermarks, local feeds
 * and items, and the retry decision.
 */
module SyncSpec {

  import opened Wrappers
  import opened JavaInt
  import opened Lists
  import opened SyncModel
  import opened SyncRules

  // ---------------------------------------------------------------------------
  // The phases

  /** syncSubscriptions: fetch the delta, apply it locally, upload the local changes, advance the watermark. */
  function SubscriptionPhase(w: World, p: ProviderAnswers, env: Collaborators): Step
  {
    var lastSync := w.settings.lastSubscriptionSync;
    var fetched := w.(calls := w.calls + [GetSubscriptionChanges(lastSync)]);
    match p.subscriptionChanges
    case Failed(cause) => Step(fetched, ProviderFailed(cause))
    case Ok(changes) =>
      SubscriptionsUploaded(RemoteSubscriptionChangesApplied(fetched, changes, env),
                            SubscriptionUpload(lastSync, w.subscriptions, changes, w.queue),
                            p.subscriptionUpload, changes.timestamp)
  }

  /** The downloads and local unsubscriptions the remote delta asks for. */
  function RemoteSubscriptionChangesApplied(w: World, changes: SubscriptionChanges, env: Collaborators): World
  {
    w.(feedDownloads := w.feedDownloads + FeedsToDownload(changes.added, w.subscriptions, w.queue.removed, env.containsUrl),
       feedRemovals := w.feedRemovals + FeedsToRemove(changes.removed, w.queue.added))
  }

  /** Upload the lists when there is anything in them; clear the feed queues and persist the watermark. */
  function SubscriptionsUploaded(w: World, upload: (seq<string>, seq<string>), reply: Reply<int>, fetchedTs: int): Step
  {
    if |upload.0| > 0 || |upload.1| > 0 then
      var sent := w.(calls := w.calls + [UploadSubscriptionChanges(upload.0, upload.1)]);
      match reply
      case Failed(cause) => Step(sent, ProviderFailed(cause))
      case Ok(ts) =>
        Step(sent.(queue := sent.queue.(added := [], removed := []),
                   settings := sent.settings.(lastSubscriptionSync := ts)), Completed)
    else
      Step(w.(settings := w.settings.(lastSubscriptionSync := fetchedTs)), Completed)
  }

  /**
   * processEpisodeActions: resolve the remote batch against the queued local
   * actions and apply the winners; true when an unchecked exception stopped it.
   */
  function RemoteActionsApplied(w: World, remote: seq<EpisodeAction>, env: Collaborators): (World, bool)
  {
    if |remote| == 0 then (w, false)
    else
      var winners := env.overridingRemote(remote, w.queue.actions);
      var acc := ApplyAll(Applied(w.items, [], [], false), winners, env);
      if acc.crashed then (w.(items := acc.items), true)
      else (w.(playQueue := Minus(w.playQueue, acc.toDequeue), items := WriteItems(acc.items, acc.updated)), false)
  }

  /** syncEpisodeActions: fetch and apply the remote actions, upload the local ones, advance the watermark. */
  function EpisodeActionPhase(w: World, p: ProviderAnswers, env: Collaborators, now: int): Step
  {
    var lastSync := w.settings.lastEpisodeActionSync;
    var fetched := w.(calls := w.calls + [GetEpisodeActionChanges(lastSync)]);
    match p.episodeActionChanges
    case Failed(cause) => Step(fetched, ProviderFailed(cause))
    case Ok(changes) =>
      var processed := RemoteActionsApplied(fetched, changes.actions, env);
      var applied := processed.0;
      if processed.1 then Step(applied, Crashed)
      else
        EpisodeActionsUploaded(applied, ActionsToUpload(lastSync, applied.queue.actions, applied.items, now),
                               p.episodeActionUpload, changes.timestamp)
  }

  /** Upload the actions when there are any; clear the action queue and persist the watermark. */
  function EpisodeActionsUploaded(w: World, upload: seq<EpisodeAction>, reply: Reply<int>, fetchedTs: int): Step
  {
    if |upload| > 0 then
      var sent := w.(calls := w.calls + [UploadEpisodeActions(upload)]);
      match reply
      case Failed(cause) => Step(sent, ProviderFailed(cause))
      case Ok(ts) =>
        Step(sent.(queue := sent.queue.(actions := []), settings := sent.settings.(lastEpisodeActionSync := ts)),
             Completed)
    else
      Step(w.(settings := w.settings.(lastEpisodeActionSync := fetchedTs)), Completed)
  }

  /** The body of doWork's try block: log in, both phases, log out; the first failure ends it. */
  function Session(w: World, p: ProviderAnswers, env: Collaborators, now: int): Step
  {
    var loggedIn := w.(calls := w.calls + [Login]);
    if p.login.Failed? then Step(loggedIn, ProviderFailed(p.login.cause))
    else
      var subs := SubscriptionPhase(loggedIn, p, env);
      if !subs.outcome.Completed? then subs
      else
        var eps := EpisodeActionPhase(subs.world, p, env, now);
        if !eps.outcome.Completed? then eps
        else
          var done := eps.world.(calls := eps.world.calls + [Logout]);
          if p.logout.Failed? then Step(done, ProviderFailed(p.logout.cause)) else Step(done, Completed)
  }

  /** The world after a pass and what the worker reports. */
  datatype Work = Work(world: World, result: WorkResult)

  /** doWork: a whole pass, with the success flag, the error notification and the retry decision. */
  function Pass(w: World, p: ProviderAnswers, env: Collaborators, now: int,
                runAttemptCount: nat, notificationsEnabled: bool): Work
  {
    match ActiveProvider(w.settings.selectedProviderKey)
    case NoProvider => Work(w, Success)
    case Rejected => Work(w, Crash)
    case Provider(_) =>
      var s := Session(w.(settings := w.settings.(lastAttempt := now)), p, env, now);
      match s.outcome
      case Completed =>
        Work(s.world.(errorNotification := false, settings := s.world.settings.(lastAttemptSuccess := true)), Success)
      case ProviderFailed(_) =>
        Work(s.world.(settings := s.world.settings.(lastAttemptSuccess := false),
                      errorNotification := s.world.errorNotification
                                           || (NotifiesOnFailure(runAttemptCount) && notificationsEnabled)),
             Retry)
      case Crashed => Work(s.world, Crash)
  }

  // ---------------------------------------------------------------------------
  // Operations outside the pass

  /** enqueueFeedAdded: with an active provider, queue the URL and request a pass. */
  function AfterFeedAdded(w: World, url: string, encodeOk: bool): World
  {
    if !HasActiveSyncProvider(w.settings) then w
    else w.(queue := if encodeOk then WithFeedAdded(w.queue, url) else w.queue, syncRequested := true)
  }

  /** enqueueFeedRemoved: with an active provider, queue the URL and request a pass. */
  function AfterFeedRemoved(w: World, url: string, encodeOk: bool): World
  {
    if !HasActiveSyncProvider(w.settings) then w
    else w.(queue := if encodeOk then WithFeedRemoved(w.queue, url) else w.queue, syncRequested := true)
  }

  /** enqueueEpisodeAction: with an active provider, append the action and request a pass. */
  function AfterEpisodeAction(w: World, a: EpisodeAction, encodeOk: bool): World
  {
    if !HasActiveSyncProvider(w.settings) then w
    else w.(queue := if encodeOk then w.queue.(actions := w.queue.actions + [a]) else w.queue, syncRequested := true)
  }

  /** enqueueEpisodePlayed: build the PLAY action when the guards allow and enqueue it. */
  function AfterEpisodePlayed(w: World, media: FeedMedia, item: Option<FeedItem>, completed: bool, now: int,
                              encodeOk: bool): World
  {
    if !HasActiveSyncProvider(w.settings) then w
    else
      match EpisodePlayedAction(media, item, completed, now)
      case None => w
      case Some(a) => AfterEpisodeAction(w, a, encodeOk)
  }

  /** fullSync: zero both watermarks and request a pass. */
  function AfterFullSync(w: World): World
  {
    w.(settings := w.settings.(lastSubscriptionSync := 0, lastEpisodeActionSync := 0), syncRequested := true)
  }

  /** clearQueue: empty all three queues. */
  function AfterClearQueue(w: World): World
  {
    w.(queue := PendingQueue([], [], []))
  }

  // ---------------------------------------------------------------------------
  // Properties of the pass

  /** Without a selected provider the pass reports success and touches nothing: no attempt, no provider call. */
  lemma PassWithoutProvider(w: World, p: ProviderAnswers, env: Collaborators, now: int, n: nat, notify: bool)
    requires w.settings.selectedProviderKey.None? || w.settings.selectedProviderKey == Some("NONE")
    ensures Pass(w, p, env, now, n, notify) == Work(w, Success)
  {
  }

  /** The part of the world only doWork itself writes: the attempt bookkeeping and the notification. */
  predicate SameAttemptState(a: World, b: World)
  {
    && a.errorNotification == b.errorNotification
    && a.settings.lastAttempt == b.settings.lastAttempt
    && a.settings.lastAttemptSuccess == b.settings.lastAttemptSuccess
    && a.settings.selectedProviderKey == b.settings.selectedProviderKey
  }

  lemma SubscriptionPhaseKeepsAttemptState(w: World, p: ProviderAnswers, env: Collaborators)
    ensures SameAttemptState(SubscriptionPhase(w, p, env).world, w)
  {
  }

  lemma RemoteActionsKeepAttemptState(w: World, remote: seq<EpisodeAction>, env: Collaborators)
    ensures SameAttemptState(RemoteActionsApplied(w, remote, env).0, w)
  {
  }

  lemma EpisodeActionsUploadedKeepsAttemptState(w: World, upload: seq<EpisodeAction>, reply: Reply<int>, fetchedTs: int)
    ensures SameAttemptState(EpisodeActionsUploaded(w, upload, reply, fetchedTs).world, w)
  {
  }

  lemma EpisodeActionPhaseKeepsAttemptState(w: World, p: ProviderAnswers, env: Collaborators, now: int)
    ensures SameAttemptState(EpisodeActionPhase(w, p, env, now).world, w)
  {
    if p.episodeActionChanges.Ok? {
      var lastSync := w.settings.lastEpisodeActionSync;
      var fetched := w.(calls := w.calls + [GetEpisodeActionChanges(lastSync)]);
      var changes := p.episodeActionChanges.value;
      RemoteActionsKeepAttemptState(fetched, changes.actions, env);
      var applied := RemoteActionsApplied(fetched, changes.actions, env).0;
      EpisodeActionsUploadedKeepsAttemptState(applied, ActionsToUpload(lastSync, applied.queue.actions, applied.items, now),
                                              p.episodeActionUpload, changes.timestamp);
    }
  }

  /** The phases never touch the error notification or the attempt bookkeeping. */
  lemma SessionKeepsAttemptState(w: World, p: ProviderAnswers, env: Collaborators, now: int)
    ensures SameAttemptState(Session(w, p, env, now).world, w)
  {
    var loggedIn := w.(calls := w.calls + [Login]);
    if p.login.Ok? {
      SubscriptionPhaseKeepsAttemptState(loggedIn, p, env);
      var subs := SubscriptionPhase(loggedIn, p, env);
      if subs.outcome.Completed? {
        EpisodeActionPhaseKeepsAttemptState(subs.world, p, env, now);
      }
    }
  }

  /**
   * With a provider, a pass records the attempt; a synchronisation failure
   * anywhere yields Retry with the success flag cleared and the notification
   * raised only on attempts 2, 5, 8, ...; a completed pass yields Success with
   * the flag set and the notification cleared.
   */
  lemma RetryRule(w: World, p: ProviderAnswers, env: Collaborators, now: int, n: nat, notify: bool)
    requires ActiveProvider(w.settings.selectedProviderKey).Provider?
    ensures var r := Pass(w, p, env, now, n, notify);
            var s := Session(w.(settings := w.settings.(lastAttempt := now)), p, env, now);
            && (r.result == Retry <==> s.outcome.ProviderFailed?)
            && (r.result == Success <==> s.outcome.Completed?)
            && (r.result != Crash ==> r.world.settings.lastAttempt == now)
            && (r.result == Retry ==> !r.world.settings.lastAttemptSuccess
                                      && r.world.errorNotification == (w.errorNotification || (n % 3 == 2 && notify)))
            && (r.result == Success ==> r.world.settings.lastAttemptSuccess && !r.world.errorNotification)
  {
    SessionKeepsAttemptState(w.(settings := w.settings.(lastAttempt := now)), p, env, now);
  }

  /**
   * Remote subscription changes: an added URL is downloaded iff it is neither
   * subscribed locally nor queued for removal; a removed URL is unsubscribed
   * iff it is not queued as added.
   */
  lemma RemoteSubscriptionChanges(w: World, p: ProviderAnswers, env: Collaborators, url: string)
    requires p.subscriptionChanges.Ok?
    ensures var changes := p.subscriptionChanges.value;
            var r := SubscriptionPhase(w, p, env).world;
            && (url in r.feedDownloads[|w.feedDownloads|..] <==>
                  url in changes.added && !env.containsUrl(w.subscriptions, url) && url !in w.queue.removed)
            && (url in r.feedRemovals[|w.feedRemovals|..] <==> url in changes.removed && url !in w.queue.added)
  {
    var changes := p.subscriptionChanges.value;
    var r := SubscriptionPhase(w, p, env).world;
    assert r.feedDownloads[|w.feedDownloads|..]
        == FeedsToDownload(changes.added, w.subscriptions, w.queue.removed, env.containsUrl);
    assert r.feedRemovals[|w.feedRemovals|..] == FeedsToRemove(changes.removed, w.queue.added);
    FeedsToDownloadMembers(changes.added, w.subscriptions, w.queue.removed, env.containsUrl, url);
    FeedsToRemoveMembers(changes.removed, w.queue.added, url);
  }

  /** A failed fetch ends the phase with nothing changed but the recorded call. */
  lemma SubscriptionFetchFailure(w: World, p: ProviderAnswers, env: Collaborators)
    requires p.subscriptionChanges.Failed?
    ensures SubscriptionPhase(w, p, env)
         == Step(w.(calls := w.calls + [GetSubscriptionChanges(w.settings.lastSubscriptionSync)]),
                 ProviderFailed(p.subscriptionChanges.cause))
  {
  }

  /**
   * The subscription upload: it happens iff there is something to upload;
   * once it returns the feed queues are cleared and its timestamp becomes the
   * watermark; if it throws, queues and watermark stay as they were; with
   * nothing to upload the fetched timestamp becomes the watermark.
   */
  lemma SubscriptionUploadRule(w: World, p: ProviderAnswers, env: Collaborators)
    requires p.subscriptionChanges.Ok?
    ensures var changes := p.subscriptionChanges.value;
            var up := SubscriptionUpload(w.settings.lastSubscriptionSync, w.subscriptions, changes, w.queue);
            var s := SubscriptionPhase(w, p, env);
            var fetchCall := GetSubscriptionChanges(w.settings.lastSubscriptionSync);
            && (|up.0| > 0 || |up.1| > 0 ==>
                  && s.world.calls == w.calls + [fetchCall, UploadSubscriptionChanges(up.0, up.1)]
                  && (p.subscriptionUpload.Ok? ==>
                        s.outcome == Completed && s.world.queue == w.queue.(added := [], removed := [])
                        && s.world.settings == w.settings.(lastSubscriptionSync := p.subscriptionUpload.value))
                  && (p.subscriptionUpload.Failed? ==>
                        s.outcome == ProviderFailed(p.subscriptionUpload.cause) && s.world.queue == w.queue
                        && s.world.settings == w.settings))
            && (|up.0| == 0 && |up.1| == 0 ==>
                  s.outcome == Completed && s.world.calls == w.calls + [fetchCall] && s.world.queue == w.queue
                  && s.world.settings == w.settings.(lastSubscriptionSync := changes.timestamp))
  {
  }

  /**
   * The first subscription sync uploads every local subscription the server
   * did not report as added, whatever was queued as added before, and the
   * queued removals the server did not report.
   */
  lemma FirstSubscriptionSync(w: World, p: ProviderAnswers, env: Collaborators)
    requires w.settings.lastSubscriptionSync == 0 && p.subscriptionChanges.Ok?
    ensures var changes := p.subscriptionChanges.value;
            var up := SubscriptionUpload(0, w.subscriptions, changes, w.queue);
            && up == (Minus(w.subscriptions, changes.added), Minus(w.queue.removed, changes.removed))
            && (|up.0| > 0 || |up.1| > 0 ==>
                  UploadSubscriptionChanges(up.0, up.1) in SubscriptionPhase(w, p, env).world.calls)
  {
  }

  /** After fullSync the next subscription phase takes the first-sync branch. */
  lemma FullSyncStartsOver(w: World, p: ProviderAnswers, env: Collaborators)
    requires p.subscriptionChanges.Ok?
    ensures var w' := AfterFullSync(w);
            var changes := p.subscriptionChanges.value;
            && w'.settings.lastSubscriptionSync == 0 && w'.settings.lastEpisodeActionSync == 0
            && SubscriptionUpload(w'.settings.lastSubscriptionSync, w'.subscriptions, changes, w'.queue)
               == (Minus(w.subscriptions, changes.added), Minus(w.queue.removed, changes.removed))
  {
  }

  /**
   * The bootstrap scenario: watermark 0, server reports no changes at 100,
   * one local subscription X and empty queues. The pass uploads ([X], []),
   * then clears the queues and adopts the upload's timestamp.
   */
  lemma FirstSyncScenario(w: World, p: ProviderAnswers, env: Collaborators, x: string, uploadTs: int)
    requires w.settings.lastSubscriptionSync == 0 && w.subscriptions == [x]
    requires w.queue.added == [] && w.queue.removed == []
    requires p.subscriptionChanges == Ok(SubscriptionChanges([], [], 100))
    requires p.subscriptionUpload == Ok(uploadTs)
    ensures var s := SubscriptionPhase(w, p, env);
            && s.outcome == Completed
            && s.world.calls == w.calls + [GetSubscriptionChanges(0), UploadSubscriptionChanges([x], [])]
            && s.world.queue.added == [] && s.world.queue.removed == []
            && s.world.settings.lastSubscriptionSync == uploadTs
  {
    assert Minus([x], []) == [x];
    assert Minus<string>([], []) == [];
  }

  /** An empty remote batch changes nothing, nor does a batch with no winners. */
  lemma NoWinnersChangeNothing(w: World, remote: seq<EpisodeAction>, env: Collaborators)
    requires |remote| == 0 || env.overridingRemote(remote, w.queue.actions) == []
    ensures RemoteActionsApplied(w, remote, env) == (w, false)
  {
    if |remote| != 0 {
      MinusNothing(w.playQueue);
    }
  }

  /**
   * Applying the winners keeps the rows and their ids, and a row no item
   * written back names keeps its media; only known items are written back,
   * and only items marked played leave the play queue.
   */
  lemma RemoteActionsKeepTable(w: World, remote: seq<EpisodeAction>, env: Collaborators)
    requires |remote| > 0
    ensures var winners := env.overridingRemote(remote, w.queue.actions);
            var acc := ApplyAll(Applied(w.items, [], [], false), winners, env);
            && DequeuedArePlayed(acc) && UpdatesKnownItems(acc)
            && |RemoteActionsApplied(w, remote, env).0.items| == |w.items|
            && (forall k :: 0 <= k < |w.items| ==> RemoteActionsApplied(w, remote, env).0.items[k].id == w.items[k].id)
            && (forall k :: 0 <= k < |w.items| && (forall u :: u in acc.updated ==> u.id != w.items[k].id) ==>
                  RemoteActionsApplied(w, remote, env).0.items[k].media == w.items[k].media)
  {
    var winners := env.overridingRemote(remote, w.queue.actions);
    ApplyAllConsistent(Applied(w.items, [], [], false), winners, env);
    ApplyAllKeepsTable(Applied(w.items, [], [], false), winners, env);
  }

  /**
   * Applying remote actions writes positions back: a row that some written-back
   * item names ends up with media whose position is a winning non-NEW
   * action's position in milliseconds.
   */
  lemma {:induction false} RemoteActionsWritePositions(w: World, remote: seq<EpisodeAction>, env: Collaborators,
                                                       k: nat, j: nat)
    requires |remote| > 0 && !RemoteActionsApplied(w, remote, env).1
    requires var acc := ApplyAll(Applied(w.items, [], [], false), env.overridingRemote(remote, w.queue.actions), env);
             k < |w.items| && j < |acc.updated| && acc.updated[j].id == w.items[k].id
    ensures var winners := env.overridingRemote(remote, w.queue.actions);
            var row := RemoteActionsApplied(w, remote, env).0.items[k];
            row.id == w.items[k].id && row.media.Some?
            && exists a :: a in winners && a.kind != New && LookupId(a, env) == Some(w.items[k].id)
                           && row.media.value.position == Wrap32(a.position as int * 1000)
  {
    var winners := env.overridingRemote(remote, w.queue.actions);
    var start := Applied(w.items, [], [], false);
    var acc := ApplyAll(start, winners, env);
    ApplyAllKeepsTable(start, winners, env);
    ApplyAllWritesPositions(start, winners, env);
    LastUpdateExists(acc.updated, w.items[k].id, j);
    var l :| j <= l < |acc.updated| && acc.updated[l].id == w.items[k].id
             && forall l' :: l < l' < |acc.updated| ==> acc.updated[l'].id != w.items[k].id;
    WriteItemsLastWins(acc.items, acc.updated, k, l);
    assert RemoteActionsApplied(w, remote, env).0.items[k] == acc.updated[l];
  }

  /**
   * No non-NEW winner is lost: when the pass runs to the end, the row any
   * such winner's lookup finds ends with media at the position of a winning
   * non-NEW action for that same item (the last one, when several name it).
   */
  lemma RemoteActionsWriteEveryWinner(w: World, remote: seq<EpisodeAction>, env: Collaborators, i: nat)
    requires |remote| > 0 && !RemoteActionsApplied(w, remote, env).1
    requires var winners := env.overridingRemote(remote, w.queue.actions);
             i < |winners| && winners[i].kind != New && FindRow(w.items, winners[i], env).Some?
    ensures var winners := env.overridingRemote(remote, w.queue.actions);
            var k := FindRow(w.items, winners[i], env).value;
            var row := RemoteActionsApplied(w, remote, env).0.items[k];
            row.id == w.items[k].id && row.media.Some?
            && exists a :: a in winners && a.kind != New && LookupId(a, env) == Some(w.items[k].id)
                           && row.media.value.position == Wrap32(a.position as int * 1000)
  {
    var winners := env.overridingRemote(remote, w.queue.actions);
    var start := Applied(w.items, [], [], false);
    var acc := ApplyAll(start, winners, env);
    var k := FindRow(w.items, winners[i], env).value;
    ApplyAllWritesEveryWinner(start, winners, env, i);
    var u :| u in acc.updated && u.id == w.items[k].id && u.media.Some?
             && u.media.value.position == Wrap32(winners[i].position as int * 1000);
    var j :| 0 <= j < |acc.updated| && acc.updated[j] == u;
    RemoteActionsWritePositions(w, remote, env, k, j);
  }

  /**
   * An episode that has almost ended leaves the play queue: after a pass
   * without a stop, a row some written-back item names whose final media has
   * almost ended is played, and its id is no longer in the play queue.
   */
  lemma {:induction false} RemoteActionsEndedLeaveQueue(w: World, remote: seq<EpisodeAction>, env: Collaborators,
                                                        k: nat, j: nat)
    requires |remote| > 0 && !RemoteActionsApplied(w, remote, env).1
    requires var acc := ApplyAll(Applied(w.items, [], [], false), env.overridingRemote(remote, w.queue.actions), env);
             k < |w.items| && j < |acc.updated| && acc.updated[j].id == w.items[k].id
    ensures var s := RemoteActionsApplied(w, remote, env).0;
            var row := s.items[k];
            row.media.Some? && env.hasAlmostEnded(row.media.value) ==> row.played && row.id !in s.playQueue
  {
    var winners := env.overridingRemote(remote, w.queue.actions);
    var start := Applied(w.items, [], [], false);
    var acc := ApplyAll(start, winners, env);
    ApplyAllKeepsTable(start, winners, env);
    LastUpdateExists(acc.updated, w.items[k].id, j);
    var l :| j <= l < |acc.updated| && acc.updated[l].id == w.items[k].id
             && forall l' :: l < l' < |acc.updated| ==> acc.updated[l'].id != w.items[k].id;
    WriteItemsLastWins(acc.items, acc.updated, k, l);
    var row := acc.updated[l];
    assert RemoteActionsApplied(w, remote, env).0.items[k] == row;
    if row.media.Some? && env.hasAlmostEnded(row.media.value) {
      ApplyAllEndedArePlayed(start, winners, env, l);
      assert RemoteActionsApplied(w, remote, env).0.playQueue == Minus(w.playQueue, acc.toDequeue);
    }
  }

  /**
   * A NEW winner leaves its row unplayed after a pass without a stop, unless a
   * non-NEW winner's lookup finds the same item: that winner writes back an
   * item read on its own (before or after the NEW), with its own played flag.
   */
  lemma {:induction false} RemoteActionsNewUnplays(w: World, remote: seq<EpisodeAction>, env: Collaborators, i: nat)
    requires |remote| > 0 && !RemoteActionsApplied(w, remote, env).1
    requires var winners := env.overridingRemote(remote, w.queue.actions);
             i < |winners| && winners[i].kind == New && FindRow(w.items, winners[i], env).Some?
    requires var winners := env.overridingRemote(remote, w.queue.actions);
             var id := w.items[FindRow(w.items, winners[i], env).value].id;
             forall a :: a in winners && a.kind != New ==> LookupId(a, env) != Some(id)
    ensures var winners := env.overridingRemote(remote, w.queue.actions);
            !RemoteActionsApplied(w, remote, env).0.items[FindRow(w.items, winners[i], env).value].played
  {
    var winners := env.overridingRemote(remote, w.queue.actions);
    var start := Applied(w.items, [], [], false);
    var acc := ApplyAll(start, winners, env);
    var k := FindRow(w.items, winners[i], env).value;
    var id := w.items[k].id;
    ApplyAllNewUnplays(start, winners, env, i);
    ApplyAllKeepsTable(start, winners, env);
    ApplyAllWritesPositions(start, winners, env);
    forall u | u in acc.updated
      ensures u.id != acc.items[k].id
    {
      var j :| 0 <= j < |acc.updated| && acc.updated[j] == u;
      var a :| a in winners && a.kind != New && LookupId(a, env) == Some(acc.updated[j].id)
               && acc.updated[j].media.Some?
               && acc.updated[j].media.value.position == Wrap32(a.position as int * 1000);
    }
    assert RemoteActionsApplied(w, remote, env).0.items[k] == acc.items[k];
  }

  /** A failed episode-action fetch ends the phase with nothing changed but the recorded call. */
  lemma EpisodeActionFetchFailure(w: World, p: ProviderAnswers, env: Collaborators, now: int)
    requires p.episodeActionChanges.Failed?
    ensures EpisodeActionPhase(w, p, env, now)
         == Step(w.(calls := w.calls + [GetEpisodeActionChanges(w.settings.lastEpisodeActionSync)]),
                 ProviderFailed(p.episodeActionChanges.cause))
  {
  }

  /**
   * The episode-action upload: it happens iff there is an action to upload;
   * only once it returns is the action queue cleared and its timestamp
   * adopted; if it throws the queue and watermark stay; with nothing to upload
   * the fetched timestamp becomes the watermark. On a first sync the upload
   * carries one full-duration PLAY action per played item with media.
   */
  lemma EpisodeActionUploadRule(w: World, p: ProviderAnswers, env: Collaborators, now: int)
    requires p.episodeActionChanges.Ok?
    requires !RemoteActionsApplied(w, p.episodeActionChanges.value.actions, env).1
    ensures var lastSync := w.settings.lastEpisodeActionSync;
            var changes := p.episodeActionChanges.value;
            var applied := RemoteActionsApplied(w, changes.actions, env).0;
            var up := ActionsToUpload(lastSync, w.queue.actions, applied.items, now);
            var s := EpisodeActionPhase(w, p, env, now);
            && (lastSync == 0 ==> up == w.queue.actions + FirstSyncPlayActions(PlayedItems(applied.items), now))
            && (lastSync != 0 ==> up == w.queue.actions)
            && (|up| > 0 ==>
                  && s.world.calls == w.calls + [GetEpisodeActionChanges(lastSync), UploadEpisodeActions(up)]
                  && (p.episodeActionUpload.Ok? ==>
                        s.outcome == Completed && s.world.queue == w.queue.(actions := [])
                        && s.world.settings == w.settings.(lastEpisodeActionSync := p.episodeActionUpload.value))
                  && (p.episodeActionUpload.Failed? ==>
                        s.outcome == ProviderFailed(p.episodeActionUpload.cause)
                        && s.world.queue == w.queue && s.world.settings == w.settings))
            && (|up| == 0 ==>
                  s.outcome == Completed && s.world.calls == w.calls + [GetEpisodeActionChanges(lastSync)]
                  && s.world.settings == w.settings.(lastEpisodeActionSync := changes.timestamp))
  {
    var changes := p.episodeActionChanges.value;
    var fetched := w.(calls := w.calls + [GetEpisodeActionChanges(w.settings.lastEpisodeActionSync)]);
    assert RemoteActionsApplied(fetched, changes.actions, env).0
        == RemoteActionsApplied(w, changes.actions, env).0.(calls := fetched.calls);
  }

  /**
   * Each phase commits its own watermark: when the episode-action phase fails,
   * the subscription watermark the earlier phase adopted is kept, and the
   * episode-action watermark is unchanged.
   */
  lemma PhasesCommitIndependently(w: World, p: ProviderAnswers, env: Collaborators, now: int)
    requires !EpisodeActionPhase(w, p, env, now).outcome.Completed?
    ensures var s := EpisodeActionPhase(w, p, env, now).world;
            s.settings == w.settings && s.subscriptions == w.subscriptions
            && s.queue.added == w.queue.added && s.queue.removed == w.queue.removed
  {
    if p.episodeActionChanges.Ok? {
      var lastSync := w.settings.lastEpisodeActionSync;
      var fetched := w.(calls := w.calls + [GetEpisodeActionChanges(lastSync)]);
      var changes := p.episodeActionChanges.value;
      var applied := RemoteActionsApplied(fetched, changes.actions, env).0;
      assert applied.settings == w.settings && applied.subscriptions == w.subscriptions && applied.queue == w.queue;
      if !RemoteActionsApplied(fetched, changes.actions, env).1 {
        var up := ActionsToUpload(lastSync, applied.queue.actions, applied.items, now);
        var s := EpisodeActionsUploaded(applied, up, p.episodeActionUpload, changes.timestamp);
        assert s == EpisodeActionPhase(w, p, env, now);
        assert s.world.settings == applied.settings && s.world.queue == applied.queue;
      }
    }
  }

  // ---------------------------------------------------------------------------
  // Properties of the enqueue operations

  /** Without a selected, connected provider the enqueue operations change nothing at all. */
  lemma EnqueueNeedsActiveProvider(w: World, url: string, a: EpisodeAction, media: FeedMedia,
                                   item: Option<FeedItem>, completed: bool, now: int, ok: bool)
    requires !HasActiveSyncProvider(w.settings)
    ensures AfterFeedAdded(w, url, ok) == w && AfterFeedRemoved(w, url, ok) == w
    ensures AfterEpisodeAction(w, a, ok) == w && AfterEpisodePlayed(w, media, item, completed, now, ok) == w
  {
  }

  /**
   * enqueueEpisodePlayed queues exactly the guarded PLAY action: nothing when
   * the media has no item, starts before zero, or did not advance without
   * completing; otherwise the action with seconds derived from the media.
   */
  lemma EpisodePlayedQueued(w: World, media: FeedMedia, item: Option<FeedItem>, completed: bool, now: int)
    requires HasActiveSyncProvider(w.settings)
    ensures var r := AfterEpisodePlayed(w, media, item, completed, now, true);
            && ((item.None? || media.startPosition < 0 || (!completed && media.startPosition >= media.position))
                ==> r == w)
            && (item.Some? && media.startPosition >= 0 && (completed || media.startPosition < media.position) ==>
                  && r.syncRequested
                  && |r.queue.actions| == |w.queue.actions| + 1
                  && r.queue.actions[..|w.queue.actions|] == w.queue.actions
                  && var a := r.queue.actions[|w.queue.actions|];
                     a.kind == Play && a.started == Secs(media.startPosition)
                     && a.position == Secs(if completed then media.duration else media.position)
                     && a.total == Secs(media.duration))
  {
    var r := AfterEpisodePlayed(w, media, item, completed, now, true);
    if item.Some? && media.startPosition >= 0 && (completed || media.startPosition < media.position) {
      assert r.queue.actions[..|w.queue.actions|] == w.queue.actions;
    }
  }
}

=== FILE: wrappers.dfy ===
/** Java's nullable references, as a value. */
module Wrappers {

  datatype Option<+T> = None | Some(value: T)
}
